=== FILE: README.md ===
# Empire RAG: a Dafny model of the dashboard and the worker

This project models the deterministic logic of a small retrieval-augmented
chat system. It has two halves:

- a React dashboard (`dashboard/src/App.tsx`) that uploads documents and chats;
- a Python Cloudflare worker (`entry.py`) that chunks, embeds and stores
  documents and answers questions from them.

Every network call, the PDF parser, the `FileReader`, Workers AI and
Vectorize are replaced by their outcomes, which are passed in as values.

Dashboard side:

- `session.dfy`: the client state (`DocFile`, `Message`, the file list,
  transcript, input and in-flight flag), the name-keyed `updateFileStatus`,
  and the pending entries of a new batch.
- `extraction.dfy`: `readPDFFile` (the page loop and the blank-text
  failure), `readFileAsText`, and the `.pdf` suffix dispatch.
- `error_text.dfy`: the error texts of a failed upload and of a failed chat
  request, which are derived differently.
- `upload.dfy`: `handleFileUpload` as a pure step. It first appends the
  pending entries. It then builds the ordered list of state updates the
  handler performs (status updates and transcript appends) and applies them
  in order.
- `mount.dfy`: the health check the dashboard runs once on mount, which may
  append a warning to the transcript.
- `chat.dfy`: `handleSendMessage`, split at its await into a guarded
  `BeginSend` and a `FinishSend` that appends the reply and releases the flag.

Worker side:

- `chunking.dfy`: `split_text`, and the batch-of-five embedding loop that
  names vectors `<filename>_chunk_<k>`.
- `backend.dfy`: body parsing and validation in `handle_upload` and
  `handle_chat`, context assembly, source de-duplication, and the `on_fetch`
  dispatch.

Shared helpers:

- `text.dfy`: joins, JavaScript whitespace and `trim`, substring containment,
  decimal rendering.
- `js_values.dfy`: JSON values with JavaScript and Python truthiness,
  JavaScript `||`, property reads that throw on `null`, and `String(v)`.
- `wire.dfy`: response bodies and transport outcomes.
- `wrappers.dfy`: `Option`.

The name-keyed status update also rewrites entries of earlier batches that
share a name (`dashboard/src/App.tsx:191`). It is modelled as written and
made visible by `Session.UpdateReachesEarlierBatch` and
`Upload.FinalStatuses`.

## Model

| member | source | states |
|---|---|---|
| Session.UpdateFileStatus | dashboard/src/App.tsx:190-192 | length and names are kept; every entry whose name equals the argument (anywhere in the list) takes the new status; every other entry is unchanged |
| Session.UpdateLastWins | dashboard/src/App.tsx:190-192 | a second update of the same name overrides the first completely |
| Session.UpdatesCommute | dashboard/src/App.tsx:190-192 | updates of two different names commute |
| Session.UpdateReachesEarlierBatch | dashboard/src/App.tsx:191 | an update aimed at a new batch's "a.txt" also resets an earlier, already indexed "a.txt" entry |
| Session.AppendPending | dashboard/src/App.tsx:83-84 | existing entries stay as a prefix; one `pending` entry per selected name follows, in selection order |
| Extraction.AssemblePdfText | dashboard/src/App.tsx:218-228 | the page loop's `fullText` is the concatenation over pages 1..N of (items joined by a space) + newline, so it has at least one character per page |
| Extraction.ReadPdf | dashboard/src/App.tsx:213-239 | a successful read returns the assembled page text, which is non-blank after trimming; a thrown `Error` gives "Failed to parse PDF: " followed by its message; every failure message starts with that prefix, and a page read that fails gives exactly that prefix followed by "PDF appears to be empty or contains no extractable text" |
| Extraction.PdfFailsIffAllItemsBlank | dashboard/src/App.tsx:221-232 | a PDF whose pages were read fails exactly when every text item of every page is whitespace (no pages included) |
| Extraction.ReadText | dashboard/src/App.tsx:194-211 | the text reader succeeds exactly on a string result and then returns it unchanged |
| Extraction.PdfSuffixDispatch | dashboard/src/App.tsx:106-112 | a name goes to the PDF reader exactly when its last four characters are "." then p, d, f in either case; every other name goes to the text reader |
| Extraction.PageLineBlank | dashboard/src/App.tsx:224-227 | a page's line is blank exactly when every item on the page is blank |
| Extraction.BlankTextFilePassesExtraction | dashboard/src/App.tsx:108-117 | a whitespace-only .txt file passes extraction unchanged: the text reader has no blank test |
| Extraction.UpperCasePdfSuffix | dashboard/src/App.tsx:106-108 | any name ending in ".PDF" goes to the PDF reader |
| Extraction.BlankPdfFailsExtraction | dashboard/src/App.tsx:108-109 | "notes.PDF" whose only item is blank fails extraction with the full empty-PDF message, unlike the blank text file |
| ErrorText.NetworkErrorText | dashboard/src/App.tsx:139-142 | the message starts "Network error: " and carries the rejected `Error`'s message |
| ErrorText.UploadErrorText | dashboard/src/App.tsx:144-159 | unreadable body: "Upload failed with status <code> <text>". JSON body: first truthy of `error` and `message`, else "Server error: <code>". Non-JSON or `null` body: the raw text if non-empty, else "Server error: <code> <text>" |
| ErrorText.ChatErrorText | dashboard/src/App.tsx:261-269 | a body that does not parse as JSON, or parses to `null`, gives "Request failed with status <code>"; otherwise the same `error`/`message`/"Server error: <code>" priority |
| ErrorText.UploadAndChatDiffer | dashboard/src/App.tsx:261-268 | for any status, a non-empty body that is not JSON is reported verbatim on upload, while chat reports only "Request failed with status <code>" |
| ErrorText.EmptyBodyFallbacks | dashboard/src/App.tsx:152-157 | for an empty non-JSON body, upload reports the code and status text, chat only the code |
| ErrorText.EmptyErrorFieldFallsThrough | dashboard/src/App.tsx:151 | an empty-string `error` is falsy, so `message` is used, on both paths |
| JsValues.Or | dashboard/src/App.tsx:151 | JavaScript's logical or of `a` and `b` is one of its operands, truthy exactly when either operand is: the first when that is truthy, the second otherwise |
| JsValues.OrChain | dashboard/src/App.tsx:151 | a chain of three logical ors, as in `errorData.error` or `errorData.message` or the fallback, gives the first truthy operand, or the last one when none is, however it is grouped |
| JsValues.Prop | dashboard/src/App.tsx:150-151 | reading a property throws exactly on `null`/`undefined`; on an object it is the field or `undefined` |
| JsValues.TruthinessDiffers | entry.py:65 | Python and JavaScript truthiness of a JSON value disagree exactly on the empty array and the empty object |
| Text.TrimEmptyIffBlank | dashboard/src/App.tsx:242 | `trim()` yields "" exactly when every character is JavaScript whitespace |
| Upload.IngestNonEmptyText | dashboard/src/App.tsx:113-174 | once extraction gives non-empty text: simulation always simulates; live mode stores exactly on a 2xx response with a JSON body; otherwise it is rejected with the network error text, the upload error text, or the body-parse message |
| Upload.IngestFile | dashboard/src/App.tsx:103-174 | only live mode stores and only simulation simulates; an extraction failure is rejected with its message; empty text is rejected with "File appears to be empty" |
| Upload.OutcomeMessages | dashboard/src/App.tsx:162-184 | at most one message per file, none exactly for a simulated success; each is an assistant message without sources |
| Upload.FileEffects | dashboard/src/App.tsx:99-185 | a file's updates are `uploading` for its name, then its name's terminal status, which is `error` exactly when the file was rejected, then at most one transcript message |
| Upload.HandleFileUpload | dashboard/src/App.tsx:81-188 | no file list changes nothing; otherwise one entry per selected file is added; the input and the in-flight flag are never touched |
| Mount.CheckBackendOnMount | dashboard/src/App.tsx:40-65 | the mount check changes only the transcript, by at most one assistant message |
| Mount.MountWarnsIffUnreachable | dashboard/src/App.tsx:47-58 | a warning is appended exactly in live mode when `fetch` rejects or an ok response's body is not JSON; it carries the rejected `Error`'s message |
| Upload.ApplyAllStatus | dashboard/src/App.tsx:190-191 | after a run of updates, each entry has the last status assigned to its name, or its old status if none was assigned |
| Upload.FileEffectsSpec | dashboard/src/App.tsx:100-185 | a file's name is set to `uploading`, then to its terminal status; no other name is touched; the messages posted are the file's outcome messages |
| Upload.OutcomeMessagesSpec | dashboard/src/App.tsx:167-184 | a failure or a live success posts one message naming the file, with the error text on failure; a simulated success posts none |
| Upload.LiveBatchMessageCount | dashboard/src/App.tsx:162-184 | in live mode every processed file posts exactly one message |
| Upload.BatchTrace | dashboard/src/App.tsx:99-101 | with distinct names, each selected name goes `uploading` then terminal, and names outside the batch are never assigned |
| Upload.BatchTraceAt | dashboard/src/App.tsx:99-101 | with distinct names, the name of file i is assigned `uploading` and then file i's terminal status, and nothing else |
| Upload.BatchTraceOutside | dashboard/src/App.tsx:99-101 | a name no selected file has is never assigned by the loop, even with duplicate names in the batch |
| Upload.UploadShape | dashboard/src/App.tsx:83-186 | one new entry per selected file, after the old ones and in order; old entries keep their names; old entries with unselected names are unchanged; the transcript only grows; input and flag are untouched |
| Upload.UnselectedKept | dashboard/src/App.tsx:190-192 | an old entry whose name no selected file has keeps its status through the whole batch |
| Upload.OfflineBatch | dashboard/src/App.tsx:87-96 | live mode, unreachable probe: exactly the warning is appended; every entry bearing a selected name, and every new entry, ends in `error`; no other status is ever assigned |
| Upload.EmptyOfflineSelectionWarns | dashboard/src/App.tsx:87-95 | even an empty selection gets the warning when the probe fails |
| Upload.LiveBatchMessages | dashboard/src/App.tsx:162-184 | live mode, reachable probe: the transcript gains exactly one message per file, each file's outcome message in selection order |
| Upload.SimulationBatch | dashboard/src/App.tsx:171-174 | in simulation the probe result is irrelevant and successes post nothing |
| Upload.FinalStatuses | dashboard/src/App.tsx:99-186 | with distinct names, each new entry ends in its own file's terminal status after `uploading`; an earlier entry with the same name ends in that status too |
| Upload.NoSelectionNoChange | dashboard/src/App.tsx:82 | an event without a file list changes nothing |
| Upload.DiskFullExample | dashboard/src/App.tsx:144-151 | a live "notes.txt" answered 500 with `{"error":"disk full"}` ends in `error` with one message containing "disk full" |
| Chat.SourcesOf | dashboard/src/App.tsx:274 | a falsy `sources` becomes the empty list; an array keeps its length and its string elements |
| Chat.ErrorReply | dashboard/src/App.tsx:283-288 | the reply to a failed send is an assistant message without sources; its text starts "Error: " and contains the failure's message |
| Chat.LiveFailureReplies | dashboard/src/App.tsx:261-288 | a rejected request replies with the thrown message (or "Unknown error occurred"); a non-ok status with the chat error text; a failed body parse or `answer` read with its message |
| Chat.Accepts | dashboard/src/App.tsx:242 | the guard's `input.trim()` test holds exactly when the input has a character that is not whitespace, and no request is in flight |
| Chat.Reply | dashboard/src/App.tsx:249-288 | the reply of a send is always an assistant message |
| Chat.BeginSend | dashboard/src/App.tsx:242-247 | a refused send changes nothing; an accepted one appends the raw input as a user message, clears the input and raises the flag |
| Chat.FinishSend | dashboard/src/App.tsx:281-291 | exactly one message is appended and the flag is released |
| Chat.HandleSendMessage | dashboard/src/App.tsx:241-292 | a refused send is a no-op; an accepted one appends the user message and then exactly one assistant reply, leaving the input empty and the flag down |
| Chat.BlankInputRefused | dashboard/src/App.tsx:242 | a blank or whitespace-only input never changes the state |
| Chat.SendWhileInFlightRefused | dashboard/src/App.tsx:242-247 | while a request is in flight, a second send is refused whatever has been typed |
| Chat.AcceptedIffNonBlankAndIdle | dashboard/src/App.tsx:242 | a send is accepted iff the input has a non-whitespace character and no request is in flight; then two messages are added |
| Chat.SimulationReply | dashboard/src/App.tsx:277-278 | the simulated reply contains the query and cites "sim_data.txt" |
| Chat.LiveDefaults | dashboard/src/App.tsx:272-274 | a missing or falsy `answer` (an empty string included) becomes "No answer provided"; a non-empty string answer is kept; a missing `sources` becomes []; a present `sources` is kept, and an array of strings is kept element by element |
| Chat.LiveSuccessReply | dashboard/src/App.tsx:272-281 | an ok response with a readable body gives an assistant message whose text is `String` of `data.answer` or else "No answer provided", and whose sources come from that same body's `sources` |
| Chat.LiveReplyKinds | dashboard/src/App.tsx:261-288 | the reply carries sources exactly when the response was ok and parsed to a readable value; every other reply starts "Error: " |
| Chunking.SplitText | entry.py:19-20 | the number of chunks is ceil(len/size) |
| Chunking.SplitTextConcat | entry.py:19-20 | concatenating the chunks gives back the text |
| Chunking.SplitTextSizes | entry.py:20 | every chunk is non-empty and at most `size` long; every chunk but the last is exactly `size` long |
| Chunking.SplitTextCount | entry.py:20 | no chunks exactly for empty text; the chunks cover the text and the last one starts inside it |
| Chunking.AppendBatch | entry.py:82-94 | one batch adds a vector for each chunk of the batch that has an embedding, in order |
| Chunking.BatchRestSkipped | entry.py:82-94 | after a failed call, or past the last embedding a call returned, the rest of the batch adds no vectors |
| Chunking.BuildVectors | entry.py:71-96 | the batch loop builds exactly one vector per surviving chunk, in chunk order; a failed batch is skipped and the loop goes on |
| Chunking.BuiltMembers | entry.py:73-96 | vector p belongs to the p-th surviving chunk, and the chunk indices strictly increase |
| Chunking.BuiltComplete | entry.py:73-96 | every surviving chunk has its vector |
| Chunking.VectorPresentIffSurvives | entry.py:73-96 | chunk k has a vector iff its own batch's call returned at least k mod 5 + 1 embeddings, so a failed batch contributes nothing and does not affect other batches |
| Chunking.BuiltIdsDistinct | entry.py:86-92 | no two vectors share an id |
| Chunking.VectorIdInjective | entry.py:87 | different chunk indices give different ids for the same file |
| Chunking.AllSucceed | entry.py:73-94 | when every batch embeds every chunk, vector k has id "<filename>_chunk_<k>", text chunk k, chunk id "<k>", for k = 0..n-1 in order |
| Backend.BodyFields | entry.py:59-63 | the handlers proceed exactly on a body that parses to a JSON object, with its fields |
| Backend.HandleUpload | entry.py:57-105 | `upsert` is only ever called with a non-empty list; every JSON reply is a 200 with `chunks_processed`, or a 400 or 500 with an `error` field |
| Backend.UploadRejectsMissingFields | entry.py:65-66 | a 400 comes back exactly for an object body whose `filename` or `text` is missing or falsy in Python's sense; it carries the `error` field, and nothing is stored |
| Backend.UploadStoresBuiltVectors | entry.py:98-101 | `upsert` gets exactly the built vectors when there is at least one, and is not called otherwise; `chunks_processed` is their number; only an `upsert` failure makes a 500, and that 500 carries the failure's message as `error` |
| Backend.UploadOutcomes | entry.py:58-105 | a body that cannot be read, is not JSON or is not an object gives a 500 carrying the failure's message, with nothing upserted; a 500 without an upsert comes only from such a body |
| Backend.UploadAllBatchesSucceed | entry.py:68-101 | when every batch succeeds, `chunks_processed` is ceil(len(text)/800) |
| Backend.WithMetadata | entry.py:133-138 | a metadata record is kept exactly when some match carries it; when every match has metadata, all are kept in match order |
| Backend.WithMetadataAppend | entry.py:133-138 | the loop works match by match: one match contributes its metadata or nothing, and the result for consecutive runs of matches is the concatenation of their results, so order and repeats are always kept |
| Backend.FilenamesOfMatches | entry.py:135-138 | the collected file names are exactly those of the matches that have metadata |
| Backend.ContextString | entry.py:141 | no texts gives "No relevant context found." |
| Backend.ContextJoin | entry.py:141 | a single text is the context as it is; each further text follows a blank line ("\n\n") |
| Backend.ContextHoldsEveryText | entry.py:141 | every context text occurs in the context string |
| Backend.Dedup | entry.py:175 | the result has no duplicates and the same elements as its input |
| Backend.HandleChat | entry.py:107-180 | every chat reply is a JSON reply with status 200, 400 or 500; an error reply carries an `error` field, and a 200 carries `answer` and `sources` |
| Backend.ChatOutcomes | entry.py:107-180 | a body that is not a JSON object gives a 500 with its message; for an object with a truthy query, a 200 comes back exactly when the embedding, the search and the model call all succeed, and the first of them to raise gives a 500 carrying its own message |
| Backend.ChatRejectsEmptyQuery | entry.py:114-115 | a 400 "Query cannot be empty" comes back exactly for an object body whose `query` is missing or falsy |
| Backend.ChatAnswerAndSources | entry.py:133-176 | a 200 holds the model's answer for the assembled context and query, and sources that name each matched file exactly once |
| Backend.RouteOf | entry.py:25-30 | `OPTIONS` is the preflight route on every path |
| Backend.RoutesExactly | entry.py:33-48 | health, upload and chat are taken for exactly their method and path, and everything else except `OPTIONS` falls through to the default |
| Backend.OnFetch | entry.py:22-48 | only the upload route can store vectors |
| Backend.RoutingTable | entry.py:25-48 | `OPTIONS` gets 204; `GET /health` gets 200 with status "ok"; the API routes get their handler's reply; the rest gets the 200 banner |

## Left out

- The transport is left out. This covers `fetch`, the `AbortSignal.timeout` probe, `FileReader` decoding and pdf.js parsing; each appears only as its outcome value.
- `setTimeout` delays and React scheduling are left out. State updates are applied in program order. Stale closures across concurrent handler runs are not modelled. For example, `handleSendMessage` reads `isProcessing` from its render.
- The scroll effect is left out; it only scrolls. The mount-time health check is modelled as its own step (`Mount.CheckBackendOnMount`). When it runs relative to the user's first actions is not modelled.
- Promises that never settle are not modelled. The upload and chat `fetch` calls, the `FileReader` and pdf.js have no timeout. If one never settles, the file stays `uploading` and the rest of its batch never runs. For chat, `isProcessing` stays set and every later send is refused. The model assumes every call produces an outcome, and that assumption is what lets `FinishSend` always release the flag.
- JSX rendering, CORS headers and JSON serialisation of replies are left out. A reply is its status and its JSON value.
- The runtime type sniffing of embedding and model responses (`entry.py:121-129`, `161-171`) is left out. The query embedding is an outcome (done or raised), and the model's answer is given as an already-converted string.
- The prompt template is left out. The model call is an outcome that depends on the context string and the query.
- The large-file `console.warn` (`dashboard/src/App.tsx:120-122`) and all logging are left out.
- The outer `except` of `on_fetch` (`entry.py:50-55`) is left out. Both handlers catch their own exceptions, so only a failing URL parse could reach it.
- JSON numbers are integers only; floating point is not modelled.
- Letter case: `toLowerCase` is modelled as ASCII lower-casing. That is exact for the `.pdf` test, because no other character lower-cases to one of ".pdf".
- The `TypeError` text of a property read on `null` follows V8's wording.
- Chat.SourcesOf: a truthy `sources` that is not an array is kept as-is by the dashboard. The model stores its `String()` as a one-element list, because `Message.sources` is a list of strings. Non-string array elements are likewise stored as their `String()`.
- Chat.Reply: a truthy non-string `answer` is stored as-is by the dashboard. The model stores its `String()` instead, so `content` stays a string. In the dashboard, rendering such a message calls `content.split` on a non-string and throws (`dashboard/src/App.tsx:377`). That render failure is not modelled.
- Backend.HandleUpload: a truthy `filename` or `text` that is not a string gives the `Unmodelled` reply. Python's behaviour there depends on the value's type.
- Backend.Dedup: the order of `list(set(...))` is Python's set iteration order, which is left unspecified. The model picks first-occurrence order, and its contract promises only membership and no duplicates.
- Backend.HandleChat: match metadata fields are taken to be strings, as the upload handler stores them. The search result does not depend on the query vector. `topK=5` is not enforced.
- Chunking.SplitText: requires a positive size. The worker only calls it with 800.
- Chunking.BuildVectors: an embedding vector is an abstract value. `list(vector_data)` is not modelled.

=== FILE: backend.dfy ===
/** The Python worker: `on_fetch` routing and the two handlers,
    `handle_upload` and `handle_chat`, with Workers AI and Vectorize
    replaced by their outcomes. Every reply is either a JSON reply, the
    empty preflight reply or the plain-text banner. */
module Backend {
  import opened Wrappers
  import opened Text
  import opened JsValues
  import opened Wire
  import opened Chunking

  // ---------------------------------------------------------------------
  // Replies

  /** A reply: `json_response(data, status)`, the empty 204 preflight
      reply, the plain-text default reply, or the reply to a truthy
      `filename` or `text` that is not a string, which this model does not
      follow (Python's outcome there depends on the value's type). */
  datatype Reply =
    | NoContent
    | JsonReply(status: nat, data: JsVal)
    | TextReply(status: nat, text: string)
    | Unmodelled

  /** A handler's reply together with the vectors it asked Vectorize to
      upsert, if it called `upsert` at all. */
  datatype Handled<V> = Handled(reply: Reply, upserted: Option<seq<Vector<V>>>)

  /** `{"error": message}`. */
  function ErrorData(message: string): JsVal
  {
    Obj(map["error" := Str(message)])
  }

  /** `json_response({"error": message}, status)`, with nothing upserted. */
  function Fail<V>(status: nat, message: string): (h: Handled<V>)
    ensures h.reply.JsonReply? && h.reply.status == status && h.upserted == None
    ensures h.reply.data.Obj? && "error" in h.reply.data.fields && h.reply.data.fields["error"] == Str(message)
  {
    Handled(JsonReply(status, ErrorData(message)), None)
  }

  const MissingUploadFields: string := "Missing filename or text in request body"

  const EmptyQuery: string := "Query cannot be empty"

  const NoContext: string := "No relevant context found."

  const Banner: string := "Empire RAG Backend Online"

  /** The Python type name of a parsed JSON value (integers only). */
  function PyTypeName(v: JsVal): string
  {
    match v
    case Undefined => "NoneType"
    case Null => "NoneType"
    case Bool(_) => "bool"
    case Num(_) => "int"
    case Str(_) => "str"
    case Arr(_) => "list"
    case Obj(_) => "dict"
  }

  /** The `AttributeError` text of `body.get(...)` on a body that is not a
      dict. */
  function NoGetMessage(v: JsVal): string
  {
    "'" + PyTypeName(v) + "' object has no attribute 'get'"
  }

  /** The request body as the handlers see it after `await request.text()`
      and `json.loads`: the dict, or the message of the exception raised
      on the way (reading, parsing, or calling `.get` on a non-dict). */
  function BodyFields(b: Body): (r: Result)
    ensures r.Fields? <==> b.Received? && b.parsed.Parsed? && b.parsed.value.Obj?
    ensures r.Fields? ==> r.fields == b.parsed.value.fields
  {
    match b
    case Unreadable(m) => Raised(m)
    case Received(_, NotJson(m)) => Raised(m)
    case Received(_, Parsed(v)) => if v.Obj? then Fields(v.fields) else Raised(NoGetMessage(v))
  }

  datatype Result = Fields(fields: map<string, JsVal>) | Raised(message: string)

  // ---------------------------------------------------------------------
  // handle_upload

  /** What the Workers AI and Vectorize calls of one upload yield: the
      embedding outcome of each batch (keyed by its first chunk index) and
      whether `upsert` raised (with its message). */
  datatype UploadServices<V> = UploadServices(embedBatch: nat -> Embedding<V>, upsertError: Option<string>)

  /** `{"status": "success", "chunks_processed": n}`. */
  function SuccessData(n: nat): JsVal
  {
    Obj(map["status" := Str("success"), "chunks_processed" := Num(n)])
  }

  /** `handle_upload`. */
  function HandleUpload<V>(body: Body, svc: UploadServices<V>): (h: Handled<V>)
    ensures h.reply.JsonReply? || h.reply.Unmodelled?
    ensures h.upserted.Some? ==> |h.upserted.value| > 0
    ensures h.reply.JsonReply? ==> h.reply.status == 200 || h.reply.status == 400 || h.reply.status == 500
    ensures h.reply.JsonReply? && h.reply.status != 200 ==> h.reply.data.Obj? && "error" in h.reply.data.fields
    ensures h.reply.JsonReply? && h.reply.status == 200 ==> h.reply.data.Obj? && "chunks_processed" in h.reply.data.fields
  {
    match BodyFields(body)
    case Raised(m) => Fail(500, m)
    case Fields(fields) =>
      var filename := DictGet(fields, "filename");
      var text := DictGet(fields, "text");
      if !PyTruthy(filename) || !PyTruthy(text) then Fail(400, MissingUploadFields)
      else if !filename.Str? || !text.Str? then Handled(Unmodelled, None)
      else
        var chunks := SplitText(text.s, ChunkSize);
        var vectors := Built(filename.s, chunks, svc.embedBatch, |chunks|);
        if |vectors| == 0 then Handled(JsonReply(200, SuccessData(0)), None)
        else match svc.upsertError
          case Some(m) => Handled(JsonReply(500, ErrorData(m)), Some(vectors))
          case None => Handled(JsonReply(200, SuccessData(|vectors|)), Some(vectors))
  }

  /** The upload body carries a usable filename and text. */
  predicate UploadFieldsPresent(fields: map<string, JsVal>)
  {
    PyTruthy(DictGet(fields, "filename")) && PyTruthy(DictGet(fields, "text"))
  }

  /** A 400 comes back exactly when the body is a JSON object whose
      `filename` or `text` is missing or falsy (an empty string, list or
      object, zero, false or null); it carries an `error` field and nothing
      is embedded or stored. */
  lemma UploadRejectsMissingFields<V>(body: Body, svc: UploadServices<V>)
    ensures var h := HandleUpload(body, svc);
            && (h.reply.JsonReply? && h.reply.status == 400
                <==> BodyFields(body).Fields? && !UploadFieldsPresent(BodyFields(body).fields))
            && (h.reply.JsonReply? && h.reply.status == 400 ==>
                  h.reply.data == ErrorData(MissingUploadFields) && h.upserted == None)
  {
  }

  /** With a string filename and text, the vectors are those the batch loop
      builds over `split_text(text)`: `chunks_processed` is their number,
      `upsert` is called with exactly them when there is at least one and
      not at all otherwise, and only an `upsert` failure turns the reply
      into a 500. */
  lemma UploadStoresBuiltVectors<V>(body: Body, svc: UploadServices<V>, filename: string, text: string)
    requires BodyFields(body).Fields?
    requires DictGet(BodyFields(body).fields, "filename") == Str(filename) && filename != ""
    requires DictGet(BodyFields(body).fields, "text") == Str(text) && text != ""
    ensures var chunks := SplitText(text, ChunkSize);
            var vectors := Built(filename, chunks, svc.embedBatch, |chunks|);
            var h := HandleUpload(body, svc);
            && (h.upserted.Some? <==> |vectors| > 0)
            && (h.upserted.Some? ==> h.upserted.value == vectors)
            && (h.reply == JsonReply(200, SuccessData(|vectors|)) <==> |vectors| == 0 || svc.upsertError.None?)
            && (h.reply.JsonReply? && h.reply.status == 500 <==> |vectors| > 0 && svc.upsertError.Some?)
            && (|vectors| > 0 && svc.upsertError.Some? ==>
                  h.reply == JsonReply(500, ErrorData(svc.upsertError.value)))
  {
  }

  /** A body that cannot be read, is not JSON or is not a JSON object makes
      the handler raise before anything is embedded: the reply is a 500
      carrying that failure's message and `upsert` is never called. */
  lemma UploadOutcomes<V>(body: Body, svc: UploadServices<V>)
    ensures BodyFields(body).Raised? ==>
              && HandleUpload(body, svc).reply == JsonReply(500, ErrorData(BodyFields(body).message))
              && HandleUpload(body, svc).upserted.None?
    ensures var h := HandleUpload(body, svc);
            h.reply.JsonReply? && h.reply.status == 500 && h.upserted.None? ==> BodyFields(body).Raised?
  {
  }

  /** When every batch embeds every chunk and `upsert` succeeds, the reply
      counts one vector per chunk, ceil(len(text) / 800). */
  lemma UploadAllBatchesSucceed<V>(body: Body, svc: UploadServices<V>, filename: string, text: string)
    requires BodyFields(body).Fields?
    requires DictGet(BodyFields(body).fields, "filename") == Str(filename) && filename != ""
    requires DictGet(BodyFields(body).fields, "text") == Str(text) && text != ""
    requires AllBatchesComplete(SplitText(text, ChunkSize), svc.embedBatch) && svc.upsertError.None?
    ensures HandleUpload(body, svc).reply == JsonReply(200, SuccessData(ChunkCount(|text|, ChunkSize)))
  {
    var chunks := SplitText(text, ChunkSize);
    AllSucceed(filename, chunks, svc.embedBatch, |chunks|);
    SplitTextCount(text, ChunkSize);
  }

  // ---------------------------------------------------------------------
  // handle_chat

  /** A Vectorize match: its metadata (text and file name, as the upload
      handler stores them) when present and non-empty. */
  datatype Match = Match(metadata: Option<Meta>)

  datatype Meta = Meta(text: string, filename: string)

  /** A call that returns, or raises with a message. */
  datatype Step = Done | Failed(message: string)

  /** `matches = await env.VECTORIZE.query(...)`: the matches, or the
      message it raised. */
  datatype Search = Found(matches: seq<Match>) | SearchFailed(message: string)

  /** The answer the language model produced, already converted to a
      string, or the message of what its call raised. */
  datatype Llm = Answered(answer: string) | LlmFailed(message: string)

  /** The outcomes of the chat handler's three service calls: embedding the
      query, searching the index, and the model call, which sees the
      context string and the query. */
  datatype ChatServices = ChatServices(embedQuery: JsVal -> Step, search: Search, ask: (string, JsVal) -> Llm)

  /** The metadata of the matches that have any, in match order. */
  function WithMetadata(ms: seq<Match>): (r: seq<Meta>)
    ensures |r| <= |ms|
    ensures forall x :: x in r <==> exists i :: 0 <= i < |ms| && ms[i].metadata == Some(x)
    ensures (forall i :: 0 <= i < |ms| ==> ms[i].metadata.Some?) ==>
              |r| == |ms| && forall i :: 0 <= i < |ms| ==> Some(r[i]) == ms[i].metadata
  {
    if ms == [] then []
    else WithMetadata(ms[..|ms| - 1])
         + (match ms[|ms| - 1].metadata case Some(m) => [m] case None => [])
  }

  /** What one match contributes: its metadata, if it has any. */
  function Kept(m: Match): seq<Meta>
  {
    match m.metadata case Some(x) => [x] case None => []
  }

  /** The filter works match by match: one match contributes its metadata
      or nothing, and consecutive runs of matches contribute their results
      one after the other, so order and repeats are kept whatever mixes of
      matches with and without metadata come back. */
  lemma {:induction false} WithMetadataAppend(a: seq<Match>, b: seq<Match>)
    ensures WithMetadata(a + b) == WithMetadata(a) + WithMetadata(b)
    ensures |b| == 1 ==> WithMetadata(b) == Kept(b[0])
    decreases |b|
  {
    if b == [] {
      assert a + b == a;
    } else {
      var init := b[..|b| - 1];
      var last := b[|b| - 1];
      assert (a + b)[..|a + b| - 1] == a + init;
      assert WithMetadata(a + b) == WithMetadata(a + init) + Kept(last);
      assert WithMetadata(b) == WithMetadata(init) + Kept(last);
      WithMetadataAppend(a, init);
    }
  }

  /** Some match with metadata names file `f`. */
  predicate HasSource(ms: seq<Match>, f: string)
  {
    exists i :: 0 <= i < |ms| && ms[i].metadata.Some? && ms[i].metadata.value.filename == f
  }

  function Texts(metas: seq<Meta>): (r: seq<string>)
    ensures |r| == |metas| && forall i :: 0 <= i < |metas| ==> r[i] == metas[i].text
  {
    seq(|metas|, i requires 0 <= i < |metas| => metas[i].text)
  }

  function Filenames(metas: seq<Meta>): (r: seq<string>)
    ensures |r| == |metas| && forall i :: 0 <= i < |metas| ==> r[i] == metas[i].filename
  {
    seq(|metas|, i requires 0 <= i < |metas| => metas[i].filename)
  }

  /** The file names of the kept metadata are exactly those some match
      with metadata names. */
  lemma {:induction false} FilenamesOfMatches(ms: seq<Match>)
    ensures forall f :: f in Filenames(WithMetadata(ms)) <==> HasSource(ms, f)
  {
    if ms != [] {
      var init := ms[..|ms| - 1];
      var last := ms[|ms| - 1];
      FilenamesOfMatches(init);
      var extra := match last.metadata case Some(m) => [m] case None => [];
      assert WithMetadata(ms) == WithMetadata(init) + extra;
      assert Filenames(WithMetadata(ms)) == Filenames(WithMetadata(init)) + Filenames(extra);
      forall f ensures HasSource(ms, f) <==> HasSource(init, f) || f in Filenames(extra) {
        if HasSource(ms, f) {
          var i :| 0 <= i < |ms| && ms[i].metadata.Some? && ms[i].metadata.value.filename == f;
          if i < |init| {
            assert init[i] == ms[i];
          } else {
            assert Filenames(extra)[0] == f;
          }
        }
        if HasSource(init, f) {
          var i :| 0 <= i < |init| && init[i].metadata.Some? && init[i].metadata.value.filename == f;
          assert ms[i] == init[i];
        }
        if f in Filenames(extra) {
          assert ms[|ms| - 1].metadata.Some? && ms[|ms| - 1].metadata.value.filename == f;
        }
      }
    }
  }

  /** `context_str`: the texts joined by blank lines, or the fixed
      placeholder when there are none. */
  function ContextString(texts: seq<string>): (r: string)
    ensures texts == [] ==> r == NoContext
  {
    if texts == [] then NoContext else Join(texts, "\n\n")
  }

  /** One text is the context on its own; each further text is added after
      a blank line. */
  lemma ContextJoin(texts: seq<string>, t: string)
    ensures ContextString([t]) == t
    ensures texts != [] ==> ContextString(texts + [t]) == ContextString(texts) + "\n\n" + t
  {
    if texts != [] {
      JoinSnoc(texts, "\n\n", t);
    }
  }

  /** Every context text reaches the model call. */
  lemma ContextHoldsEveryText(texts: seq<string>, k: nat)
    requires k < |texts|
    ensures Contains(ContextString(texts), texts[k])
  {
    JoinContains(texts, "\n\n", k);
  }

  /** No element occurs twice. */
  predicate NoDuplicates(xs: seq<string>)
  {
    forall i, j :: 0 <= i < j < |xs| ==> xs[i] != xs[j]
  }

  /** `list(set(xs))`: each element once. Python leaves the order to the
      set's iteration order; this picks first-occurrence order. */
  function Dedup(xs: seq<string>): (r: seq<string>)
    ensures NoDuplicates(r)
    ensures forall x :: x in r <==> x in xs
    ensures |r| <= |xs|
  {
    if xs == [] then []
    else
      var r := Dedup(xs[..|xs| - 1]);
      var last := xs[|xs| - 1];
      assert forall x :: x in xs <==> x in xs[..|xs| - 1] || x == last by {
        assert xs == xs[..|xs| - 1] + [last];
      }
      if last in r then r else r + [last]
  }

  /** `handle_chat`. A reply is a 500 with the raised message, the 400 of
      an empty query, or `{"answer": ..., "sources": [...]}`. */
  function HandleChat(body: Body, svc: ChatServices): (r: Reply)
    ensures r.JsonReply?
    ensures r.status == 200 || r.status == 400 || r.status == 500
    ensures r.status != 200 ==> r.data.Obj? && "error" in r.data.fields
    ensures r.status == 200 ==> r.data.Obj? && "answer" in r.data.fields && "sources" in r.data.fields
  {
    match BodyFields(body)
    case Raised(m) => JsonReply(500, ErrorData(m))
    case Fields(fields) =>
      var query := DictGet(fields, "query");
      if !PyTruthy(query) then JsonReply(400, ErrorData(EmptyQuery))
      else match svc.embedQuery(query)
        case Failed(m) => JsonReply(500, ErrorData(m))
        case Done =>
          match svc.search
          case SearchFailed(m) => JsonReply(500, ErrorData(m))
          case Found(ms) =>
            var metas := WithMetadata(ms);
            match svc.ask(ContextString(Texts(metas)), query)
            case LlmFailed(m) => JsonReply(500, ErrorData(m))
            case Answered(answer) =>
              JsonReply(200, Obj(map["answer" := Str(answer), "sources" := Arr(StrItems(Dedup(Filenames(metas))))]))
  }

  function StrItems(xs: seq<string>): (r: seq<JsVal>)
    ensures |r| == |xs| && forall i :: 0 <= i < |xs| ==> r[i] == Str(xs[i])
  {
    seq(|xs|, i requires 0 <= i < |xs| => Str(xs[i]))
  }

  /** A 400 comes back exactly when the body is a JSON object whose `query`
      is missing or falsy; no service is asked anything then. */
  lemma ChatRejectsEmptyQuery(body: Body, svc: ChatServices)
    ensures var r := HandleChat(body, svc);
            && (r.status == 400 <==> BodyFields(body).Fields? && !PyTruthy(DictGet(BodyFields(body).fields, "query")))
            && (r.status == 400 ==> r.data == ErrorData(EmptyQuery))
  {
  }

  /** What decides a chat reply. A body that is not a JSON object gives a
      500 with the failure's message. Once the body is an object with a
      truthy `query`, the reply is a 200 exactly when embedding the query,
      the search and the model call all succeed, and the first of them to
      raise gives a 500 carrying its own message. */
  lemma ChatOutcomes(body: Body, svc: ChatServices)
    ensures BodyFields(body).Raised? ==>
              HandleChat(body, svc) == JsonReply(500, ErrorData(BodyFields(body).message))
    ensures BodyFields(body).Fields? && PyTruthy(DictGet(BodyFields(body).fields, "query")) ==>
              var query := DictGet(BodyFields(body).fields, "query");
              var r := HandleChat(body, svc);
              && (r.status == 200 <==>
                    && svc.embedQuery(query).Done?
                    && svc.search.Found?
                    && svc.ask(ContextString(Texts(WithMetadata(svc.search.matches))), query).Answered?)
              && (svc.embedQuery(query).Failed? ==>
                    r == JsonReply(500, ErrorData(svc.embedQuery(query).message)))
              && (svc.embedQuery(query).Done? && svc.search.SearchFailed? ==>
                    r == JsonReply(500, ErrorData(svc.search.message)))
              && (svc.embedQuery(query).Done? && svc.search.Found?
                  && svc.ask(ContextString(Texts(WithMetadata(svc.search.matches))), query).LlmFailed? ==>
                    r == JsonReply(500, ErrorData(svc.ask(ContextString(Texts(WithMetadata(svc.search.matches))), query).message)))
  {
  }

  /** A successful chat reply holds the model's answer to the context built
      from the matches with metadata, and a source list naming each of
      their files exactly once. */
  lemma ChatAnswerAndSources(body: Body, svc: ChatServices, ms: seq<Match>)
    requires BodyFields(body).Fields?
    requires svc.search == Found(ms)
    requires HandleChat(body, svc).status == 200
    ensures var query := DictGet(BodyFields(body).fields, "query");
            var data := HandleChat(body, svc).data;
            var sources := Dedup(Filenames(WithMetadata(ms)));
            && svc.ask(ContextString(Texts(WithMetadata(ms))), query).Answered?
            && data == Obj(map["answer" := Str(svc.ask(ContextString(Texts(WithMetadata(ms))), query).answer),
                                "sources" := Arr(StrItems(sources))])
            && NoDuplicates(sources)
            && (forall f :: f in sources <==> HasSource(ms, f))
  {
    FilenamesOfMatches(ms);
  }

  // ---------------------------------------------------------------------
  // on_fetch

  datatype Route = Preflight | Health | UploadRoute | ChatRoute | Fallback

  /** `str(url.pathname) if url.pathname else "/"`. */
  function NormalPath(pathname: string): string
  {
    if pathname == "" then "/" else pathname
  }

  /** The dispatch of `on_fetch`: `OPTIONS` on any path first, then the
      three verb/path pairs, then the default. */
  function RouteOf(verb: string, pathname: string): (r: Route)
    ensures r == Preflight <==> verb == "OPTIONS"
  {
    if verb == "OPTIONS" then Preflight
    else if verb == "GET" && NormalPath(pathname) == "/health" then Health
    else if verb == "POST" && NormalPath(pathname) == "/api/upload" then UploadRoute
    else if verb == "POST" && NormalPath(pathname) == "/api/chat" then ChatRoute
    else Fallback
  }

  /** Each route is taken for exactly its verb and path, and every other
      request falls through to the default. */
  lemma RoutesExactly(verb: string, pathname: string)
    ensures RouteOf(verb, pathname) == Health <==> verb == "GET" && pathname == "/health"
    ensures RouteOf(verb, pathname) == UploadRoute <==> verb == "POST" && pathname == "/api/upload"
    ensures RouteOf(verb, pathname) == ChatRoute <==> verb == "POST" && pathname == "/api/chat"
    ensures RouteOf(verb, pathname) == Fallback
        <==> verb != "OPTIONS" && !(verb == "GET" && pathname == "/health")
             && !(verb == "POST" && (pathname == "/api/upload" || pathname == "/api/chat"))
  {
    assert "/" != "/health" && "/" != "/api/upload" && "/" != "/api/chat";
  }

  /** An incoming request: verb, URL path and body. */
  datatype Request = Request(verb: string, pathname: string, body: Body)

  /** The status a reply carries. */
  function StatusOf(r: Reply): (s: nat)
  {
    match r
    case NoContent => 204
    case JsonReply(status, _) => status
    case TextReply(status, _) => status
    case Unmodelled => 0
  }

  /** `on_fetch`. */
  function OnFetch<V>(req: Request, upload: UploadServices<V>, chat: ChatServices): (h: Handled<V>)
    ensures h.upserted.Some? ==> RouteOf(req.verb, req.pathname) == UploadRoute
  {
    match RouteOf(req.verb, req.pathname)
    case Preflight => Handled(NoContent, None)
    case Health => Handled(JsonReply(200, Obj(map["status" := Str("ok"), "message" := Str("Backend is online")])), None)
    case UploadRoute => HandleUpload(req.body, upload)
    case ChatRoute => Handled(HandleChat(req.body, chat), None)
    case Fallback => Handled(TextReply(200, Banner), None)
  }

  /** The routing table: a preflight gets 204 whatever its path, a health
      check gets `{"status": "ok"}`, the two API routes get their handler's
      reply, and everything else gets the 200 banner. */
  lemma RoutingTable<V>(req: Request, upload: UploadServices<V>, chat: ChatServices)
    ensures var h := OnFetch(req, upload, chat);
            && (req.verb == "OPTIONS" ==> h.reply == NoContent && StatusOf(h.reply) == 204)
            && (req.verb == "GET" && req.pathname == "/health" ==>
                  StatusOf(h.reply) == 200 && h.reply.data.fields["status"] == Str("ok"))
            && (req.verb == "POST" && req.pathname == "/api/upload" ==> h == HandleUpload(req.body, upload))
            && (req.verb == "POST" && req.pathname == "/api/chat" ==> h.reply == HandleChat(req.body, chat))
            && (RouteOf(req.verb, req.pathname) == Fallback ==> h.reply == TextReply(200, Banner))
  {
    RoutesExactly(req.verb, req.pathname);
  }
}

=== FILE: chat.dfy ===
/** `handleSendMessage` as a pure step, split at its one await point:
    `BeginSend` (guard, user message, flag raised) and `FinishSend`
    (assistant reply, flag released). The chat `fetch` outcome is an input. */
module Chat {
  import opened Wrappers
  import opened Text
  import opened JsValues
  import opened Wire
  import opened Session
  import opened ErrorText

  const NoAnswer: string := "No answer provided"

  const SimulatedSource: string := "sim_data.txt"

  /** The canned simulation answer, which quotes the query. */
  function SimulatedAnswer(query: string): string
  {
    "[SIMULATION MODE] Based on the inputs regarding \"" + query
    + "\", the optimal strategy is consistent execution."
  }

  /** The assistant message of the `catch` block. */
  function ErrorReply(detail: string): (m: Message)
    ensures m.role == Assistant && m.sources == None
    ensures StartsWith(m.content, "Error: ") && Contains(m.content, detail)
  {
    ContainsMiddle("Error: ", detail, ". Please check the console for more details.");
    Say("Error: " + detail + ". Please check the console for more details.")
  }

  /** `data.sources || []`, kept as a list of strings. */
  function SourcesOf(v: JsVal): (r: seq<string>)
    ensures !JsTruthy(v) ==> r == []
    ensures v.Arr? ==> |r| == |v.items|
    ensures v.Arr? ==> forall i :: 0 <= i < |v.items| && v.items[i].Str? ==> r[i] == v.items[i].s
  {
    match v
    case Arr(xs) => Stringify(xs)
    case _ => if JsTruthy(v) then [ToJsString(v)] else []
  }

  /** `String(x)` of each element, in order. */
  function Stringify(xs: seq<JsVal>): (r: seq<string>)
    ensures |r| == |xs|
    ensures forall i :: 0 <= i < |xs| ==> r[i] == ToJsString(xs[i])
  {
    if xs == [] then [] else [ToJsString(xs[0])] + Stringify(xs[1..])
  }

  /** The assistant message one accepted send ends with. */
  function Reply(mode: Mode, query: string, t: Transport): (m: Message)
    ensures m.role == Assistant
  {
    if mode == Simulation then
      Message(Assistant, SimulatedAnswer(query), Some([SimulatedSource]))
    else match t
      case NetworkFailure(e) => ErrorReply(if e.JsError? then e.message else "Unknown error occurred")
      case Responded(r) =>
        if !Ok(r) then ErrorReply(ChatErrorText(r))
        else match ReadJson(r.body)
          case JsonThrew(msg) => ErrorReply(msg)
          case Json(data) =>
            match Prop(data, "answer")
            case TypeError(msg) => ErrorReply(msg)
            case Value(answer) =>
              Message(Assistant, ToJsString(Or(answer, Str(NoAnswer))),
                      Some(SourcesOf(Prop(data, "sources").v)))
  }

  /** Whether the guard lets a send through: the input is not blank once
      trimmed and no request is in flight. */
  function Accepts(s: Session): (b: bool)
    ensures b <==> !IsBlank(s.input) && !s.isProcessing
  {
    TrimEmptyIffBlank(s.input);
    Trim(s.input) != "" && !s.isProcessing
  }

  /** The synchronous part of a send: when accepted, the raw input is posted
      as a user message, the input is cleared and the flag raised; the query
      is handed on. Otherwise nothing changes. */
  function BeginSend(s: Session): (r: (Session, Option<string>))
    ensures !Accepts(s) ==> r == (s, None)
    ensures Accepts(s) ==> r.1 == Some(s.input) && r.0.isProcessing && r.0.input == ""
    ensures Accepts(s) ==> r.0.messages == s.messages + [Message(User, s.input, None)]
    ensures r.0.files == s.files
  {
    if !Accepts(s) then (s, None)
    else (s.(input := "", messages := s.messages + [Message(User, s.input, None)], isProcessing := true),
          Some(s.input))
  }

  /** The part after the await: one assistant message, flag released. */
  function FinishSend(s: Session, reply: Message): (r: Session)
    ensures r.messages == s.messages + [reply]
    ensures !r.isProcessing
    ensures r.files == s.files && r.input == s.input
  {
    s.(messages := s.messages + [reply], isProcessing := false)
  }

  /** `handleSendMessage`: a rejected send changes nothing; an accepted one
      appends the user message and then exactly one assistant message,
      clears the input and leaves the flag released. */
  function HandleSendMessage(s: Session, mode: Mode, t: Transport): (r: Session)
    ensures !Accepts(s) ==> r == s
    ensures Accepts(s) ==>
              && r.messages == s.messages + [Message(User, s.input, None)] + [Reply(mode, s.input, t)]
              && !r.isProcessing && r.input == "" && r.files == s.files
  {
    if !Accepts(s) then s
    else FinishSend(BeginSend(s).0, Reply(mode, s.input, t))
  }

  /** A blank or whitespace-only input is refused whatever the state. */
  lemma BlankInputRefused(s: Session, mode: Mode, t: Transport)
    requires IsBlank(s.input)
    ensures HandleSendMessage(s, mode, t) == s
  {
    TrimEmptyIffBlank(s.input);
  }

  /** While a request is in flight, a second send (whatever has been typed
      meanwhile) changes nothing: the transcript keeps its length. */
  lemma SendWhileInFlightRefused(s: Session, typed: string, mode: Mode, t: Transport)
    requires Accepts(s)
    ensures var inFlight := BeginSend(s).0.(input := typed);
            && inFlight.isProcessing
            && BeginSend(inFlight) == (inFlight, None)
            && HandleSendMessage(inFlight, mode, t) == inFlight
  {
  }

  /** A send is accepted exactly when the input has a non-whitespace
      character and the flag is down; then the flag is down afterwards. */
  lemma AcceptedIffNonBlankAndIdle(s: Session, mode: Mode, t: Transport)
    ensures Accepts(s) <==> !IsBlank(s.input) && !s.isProcessing
    ensures Accepts(s) ==> |HandleSendMessage(s, mode, t).messages| == |s.messages| + 2
  {
    TrimEmptyIffBlank(s.input);
  }

  /** Simulation: the reply quotes the query and cites the one canned
      source; no transport outcome matters. */
  lemma SimulationReply(query: string, t: Transport)
    ensures Contains(Reply(Simulation, query, t).content, query)
    ensures Reply(Simulation, query, t).sources == Some([SimulatedSource])
  {
    ContainsMiddle("[SIMULATION MODE] Based on the inputs regarding \"", query,
      "\", the optimal strategy is consistent execution.");
    assert SimulatedAnswer(query) == "[SIMULATION MODE] Based on the inputs regarding \"" + query
      + "\", the optimal strategy is consistent execution.";
  }

  /** Every failed live send ends in an error reply carrying the failure's
      own text: the thrown message (or "Unknown error occurred") when the
      request itself failed, the chat error text for a non-ok status, and
      the message of the failed body parse or property read otherwise. */
  lemma LiveFailureReplies(query: string, t: Transport)
    ensures t.NetworkFailure? && t.thrown.JsError? ==>
              Reply(Live, query, t) == ErrorReply(t.thrown.message)
    ensures t.NetworkFailure? && !t.thrown.JsError? ==>
              Reply(Live, query, t) == ErrorReply("Unknown error occurred")
    ensures t.Responded? && !Ok(t.response) ==>
              Reply(Live, query, t) == ErrorReply(ChatErrorText(t.response))
    ensures t.Responded? && Ok(t.response) && ReadJson(t.response.body).JsonThrew? ==>
              Reply(Live, query, t) == ErrorReply(ReadJson(t.response.body).message)
    ensures t.Responded? && Ok(t.response) && ReadJson(t.response.body).Json?
            && Prop(ReadJson(t.response.body).value, "answer").TypeError? ==>
              Reply(Live, query, t) == ErrorReply(Prop(ReadJson(t.response.body).value, "answer").message)
  {
  }

  /** Live success with a JSON object body: a missing or falsy `answer`
      becomes "No answer provided" (an empty string included), and a
      missing `sources` becomes the empty list. */
  lemma LiveDefaults(query: string, r: Response, fields: map<string, JsVal>)
    requires Ok(r) && r.body.Received? && r.body.parsed == Parsed(Obj(fields))
    ensures var m := Reply(Live, query, Responded(r));
            && ("answer" !in fields || !JsTruthy(fields["answer"]) ==> m.content == NoAnswer)
            && ("answer" in fields && fields["answer"].Str? && fields["answer"].s != "" ==>
                  m.content == fields["answer"].s)
            && ("sources" !in fields ==> m.sources == Some([]))
            && ("sources" in fields ==> m.sources == Some(SourcesOf(fields["sources"])))
            && ("sources" in fields && fields["sources"].Arr? ==>
                  var items := fields["sources"].items;
                  && m.sources.Some? && |m.sources.value| == |items|
                  && forall i :: 0 <= i < |items| && items[i].Str? ==> m.sources.value[i] == items[i].s)
  {
  }

  /** A successful live send: the response was ok and its body parsed as a
      value whose properties can be read. The reply's text is `String` of
      `data.answer || "No answer provided"`, and its sources are those of
      `data.sources || []` taken from that same body. */
  lemma LiveSuccessReply(query: string, r: Response, v: JsVal)
    requires Ok(r) && ReadJson(r.body) == Json(v) && Readable(v)
    ensures Reply(Live, query, Responded(r))
            == Message(Assistant, ToJsString(Or(Prop(v, "answer").v, Str(NoAnswer))),
                       Some(SourcesOf(Prop(v, "sources").v)))
  {
  }

  /** On the live path the reply carries a source list exactly when the
      response was ok and its body parsed as a value whose properties can
      be read; every other outcome is an error reply, starting "Error: ". */
  lemma LiveReplyKinds(query: string, t: Transport)
    ensures var m := Reply(Live, query, t);
            var success := t.Responded? && Ok(t.response) && ReadJson(t.response.body).Json?
                           && Readable(ReadJson(t.response.body).value);
            && (m.sources.Some? <==> success)
            && (!success ==> StartsWith(m.content, "Error: "))
  {
  }
}

=== FILE: chunking.dfy ===
/** The backend's ingestion arithmetic: `split_text` and the batch-of-five
    embedding loop of `handle_upload` that names each vector after its
    chunk. The embedding model is replaced by its outcome per batch. */
module Chunking {
  import opened Text

  /** The default `chunk_size` of `split_text`, the only one used. */
  const ChunkSize: nat := 800

  /** The number of chunks sent to the embedding model per call. */
  const BatchSize: nat := 5

  function Min(a: int, b: int): int
  {
    if a <= b then a else b
  }

  /** `len(range(0, n, size))`: the number of multiples of `size` below `n`. */
  function ChunkCount(n: nat, size: nat): nat
    requires size > 0
  {
    (n + size - 1) / size
  }

  /** A multiple of `size` lies below `n` exactly when its index is below the
      chunk count. */
  lemma ChunkCountBound(n: nat, size: nat, i: nat)
    requires size > 0
    ensures i < ChunkCount(n, size) <==> i * size < n
  {
    var c := ChunkCount(n, size);
    var r := (n + size - 1) % size;
    assert c * size + r == n + size - 1;
    if i < c {
      MulMonotone(i, c - 1, size);
      assert (c - 1) * size == c * size - size;
    } else {
      MulMonotone(c, i, size);
    }
  }

  lemma MulMonotone(a: nat, b: nat, k: nat)
    requires a <= b
    ensures a * k <= b * k
  {
    assert b * k == a * k + (b - a) * k;
  }

  /** `split_text(text, size)`: the slice of at most `size` characters
      starting at each multiple of `size` below `len(text)`. */
  function SplitText(text: string, size: nat): (chunks: seq<string>)
    requires size > 0
    ensures |chunks| == ChunkCount(|text|, size)
  {
    seq(ChunkCount(|text|, size), i requires 0 <= i < ChunkCount(|text|, size) =>
      ChunkCountBound(|text|, size, i);
      text[i * size .. Min((i + 1) * size, |text|)])
  }

  /** Past the first `size` characters there is one chunk fewer. */
  lemma ChunkCountStep(n: nat, size: nat)
    requires size > 0
    ensures 0 < n <= size ==> ChunkCount(n, size) == 1
    ensures n > size ==> ChunkCount(n, size) == ChunkCount(n - size, size) + 1
  {
    var c := ChunkCount(n, size);
    ChunkCountBound(n, size, 0);
    ChunkCountBound(n, size, 1);
    if n > size {
      var c' := ChunkCount(n - size, size);
      ChunkCountBound(n, size, c' + 1);
      ChunkCountBound(n - size, size, c');
      assert (c' + 1) * size == c' * size + size;
      if c' > 0 {
        ChunkCountBound(n - size, size, c' - 1);
        ChunkCountBound(n, size, c');
        assert c' * size == (c' - 1) * size + size;
      }
    }
  }

  /** Chunk `i` of a long text is chunk `i - 1` of the text past its first
      `size` characters. */
  lemma ChunkShift(text: string, size: nat, i: nat)
    requires 0 < size < |text|
    requires 0 < i < ChunkCount(|text|, size)
    ensures ChunkCount(|text| - size, size) == ChunkCount(|text|, size) - 1
    ensures SplitText(text, size)[i] == SplitText(text[size..], size)[i - 1]
  {
    ChunkCountStep(|text|, size);
    var a := (i - 1) * size;
    assert i * size == a + size;
    assert (i + 1) * size == a + size + size;
    ChunkCountBound(|text|, size, i);
    assert SplitText(text, size)[i] == text[a + size .. Min(a + size + size, |text|)];
    assert SplitText(text[size..], size)[i - 1] == text[size..][a .. Min(a + size, |text| - size)];
  }

  /** The first chunk is the first `size` characters; the rest are the
      chunks of the remainder. */
  lemma SplitTextUnfold(text: string, size: nat)
    requires size > 0 && |text| > 0
    ensures SplitText(text, size)
         == [text[..Min(size, |text|)]] + SplitText(text[Min(size, |text|)..], size)
  {
    var chunks := SplitText(text, size);
    var m := Min(size, |text|);
    var rest := SplitText(text[m..], size);
    ChunkCountStep(|text|, size);
    ChunkCountBound(|text|, size, 0);
    assert chunks[0] == text[..m];
    if |text| <= size {
      assert ChunkCount(0, size) == 0;
    } else {
      forall i | 0 < i < |chunks| ensures chunks[i] == rest[i - 1] {
        ChunkShift(text, size, i);
      }
    }
  }

  /** Concatenating the chunks gives back the text. */
  lemma {:induction false} SplitTextConcat(text: string, size: nat)
    requires size > 0
    ensures Concat(SplitText(text, size)) == text
    decreases |text|
  {
    if |text| > 0 {
      var m := Min(size, |text|);
      SplitTextUnfold(text, size);
      var chunks := SplitText(text, size);
      assert chunks[1..] == SplitText(text[m..], size);
      SplitTextConcat(text[m..], size);
      assert text == text[..m] + text[m..];
    } else {
      assert ChunkCount(0, size) == 0;
    }
  }

  /** Every chunk is non-empty and at most `size` long, and every chunk but
      the last is exactly `size` long. */
  lemma SplitTextSizes(text: string, size: nat)
    requires size > 0
    ensures var chunks := SplitText(text, size);
            && (forall i :: 0 <= i < |chunks| ==> 0 < |chunks[i]| <= size)
            && (forall i :: 0 <= i < |chunks| - 1 ==> |chunks[i]| == size)
  {
    var chunks := SplitText(text, size);
    forall i | 0 <= i < |chunks|
      ensures 0 < |chunks[i]| <= size
      ensures i < |chunks| - 1 ==> |chunks[i]| == size
    {
      ChunkCountBound(|text|, size, i);
      assert (i + 1) * size == i * size + size;
      if i < |chunks| - 1 {
        ChunkCountBound(|text|, size, i + 1);
      }
    }
  }

  /** Empty text gives no chunks; otherwise there are ceil(len/size). */
  lemma SplitTextCount(text: string, size: nat)
    requires size > 0
    ensures |SplitText(text, size)| == 0 <==> text == ""
    ensures |SplitText(text, size)| * size >= |text|
    ensures |text| > 0 ==> (|SplitText(text, size)| - 1) * size < |text|
  {
    var c := |SplitText(text, size)|;
    ChunkCountBound(|text|, size, c);
    ChunkCountBound(|text|, size, 0);
    if c > 0 {
      ChunkCountBound(|text|, size, c - 1);
    }
  }

  // ---------------------------------------------------------------------
  // Embedding batches and vectors

  /** What one embedding call yields: a failure (any exception), or the
      list `embedding_resp.data` of vectors. */
  datatype Embedding<V> = EmbedFailed | Embedded(data: seq<V>)

  /** One Vectorize record: id, values, and metadata (text, filename,
      chunk id). */
  datatype Vector<V> = Vector(id: string, values: V, text: string, filename: string, chunkId: string)

  /** The id of chunk `k` of a file. */
  function VectorId(filename: string, k: nat): string
  {
    filename + "_chunk_" + NatToString(k)
  }

  lemma VectorIdInjective(filename: string, a: nat, b: nat)
    requires VectorId(filename, a) == VectorId(filename, b)
    ensures a == b
  {
    var p := |filename + "_chunk_"|;
    assert NatToString(a) == VectorId(filename, a)[p..];
    assert NatToString(b) == VectorId(filename, b)[p..];
    NatToStringInjective(a, b);
  }

  /** The start of the batch holding chunk `k`. */
  function BatchOf(k: nat): nat
  {
    k - k % BatchSize
  }

  /** Position `j` of the batch starting at `start` is chunk `start + j`. */
  lemma BatchOffset(start: nat, j: nat)
    requires start % BatchSize == 0 && j < BatchSize
    ensures BatchOf(start + j) == start && (start + j) % BatchSize == j
  {
  }

  /** Chunk `k` gets a vector when its batch's embedding call returned and
      returned at least `k - start + 1` vectors. A call that returns fewer
      leaves the tail of its batch without vectors; one that returns more
      raises `IndexError` past the batch, which the same `except` absorbs
      after the batch's own vectors were kept. */
  predicate Survives<V>(chunks: seq<string>, embed: nat -> Embedding<V>, k: nat)
  {
    k < |chunks| && embed(BatchOf(k)).Embedded? && k % BatchSize < |embed(BatchOf(k)).data|
  }

  function MakeVector<V>(filename: string, chunks: seq<string>, embed: nat -> Embedding<V>, k: nat): Vector<V>
    requires Survives(chunks, embed, k)
  {
    Vector(VectorId(filename, k), embed(BatchOf(k)).data[k % BatchSize], chunks[k], filename, NatToString(k))
  }

  /** The vectors the loop has built once it has dealt with the first `m`
      chunks: one per surviving chunk, in chunk order. */
  function Built<V>(filename: string, chunks: seq<string>, embed: nat -> Embedding<V>, m: nat): seq<Vector<V>>
    requires m <= |chunks|
  {
    if m == 0 then []
    else Built(filename, chunks, embed, m - 1)
         + (if Survives(chunks, embed, m - 1) then [MakeVector(filename, chunks, embed, m - 1)] else [])
  }

  /** The surviving chunk indices below `m`, in increasing order. */
  function Origins<V>(chunks: seq<string>, embed: nat -> Embedding<V>, m: nat): seq<nat>
  {
    if m == 0 then []
    else Origins(chunks, embed, m - 1) + (if Survives(chunks, embed, m - 1) then [m - 1] else [])
  }

  /** Chunks that do not survive add nothing. */
  lemma {:induction false} BuiltSkips<V>(filename: string, chunks: seq<string>, embed: nat -> Embedding<V>, m: nat, m': nat)
    requires m <= m' <= |chunks|
    requires forall k :: m <= k < m' ==> !Survives(chunks, embed, k)
    ensures Built(filename, chunks, embed, m') == Built(filename, chunks, embed, m)
    decreases m'
  {
    if m' > m {
      BuiltSkips(filename, chunks, embed, m, m' - 1);
    }
  }

  /** A surviving chunk appends its own vector. */
  lemma BuiltStep<V>(filename: string, chunks: seq<string>, embed: nat -> Embedding<V>, m: nat)
    requires m < |chunks| && Survives(chunks, embed, m)
    ensures Built(filename, chunks, embed, m + 1)
            == Built(filename, chunks, embed, m) + [MakeVector(filename, chunks, embed, m)]
  {
  }

  /** The chunks of a batch from position `from - start` on add nothing when
      the batch's call failed or returned no more than `from - start`
      vectors. */
  lemma BatchRestSkipped<V>(filename: string, chunks: seq<string>, embed: nat -> Embedding<V>,
                            start: nat, from: nat, end: nat)
    requires start % BatchSize == 0 && start <= from <= end <= |chunks| && end <= start + BatchSize
    requires embed(start).Embedded? ==> |embed(start).data| <= from - start
    ensures Built(filename, chunks, embed, end) == Built(filename, chunks, embed, from)
  {
    forall k | from <= k < end ensures !Survives(chunks, embed, k) {
      BatchOffset(start, k - start);
    }
    BuiltSkips(filename, chunks, embed, from, end);
  }

  /** The inner loop of `handle_upload` for the batch starting at `start`:
      one vector per returned embedding while the batch has chunks left.
      Returns the vectors built once the whole batch is dealt with. */
  method AppendBatch<V>(filename: string, chunks: seq<string>, embed: nat -> Embedding<V>,
                        start: nat, data: seq<V>, built: seq<Vector<V>>)
    returns (vectors: seq<Vector<V>>)
    requires start % BatchSize == 0 && start < |chunks|
    requires embed(start) == Embedded(data)
    requires built == Built(filename, chunks, embed, start)
    ensures vectors == Built(filename, chunks, embed, Min(start + BatchSize, |chunks|))
  {
    var end := Min(start + BatchSize, |chunks|);
    var batch := chunks[start..end];
    vectors := built;
    var j := 0;
    while j < |data| && j < |batch|
      invariant 0 <= j <= |batch|
      invariant vectors == Built(filename, chunks, embed, start + j)
    {
      assert batch[j] == chunks[start + j];
      var v := Vector(filename + "_chunk_" + NatToString(start + j), data[j], batch[j],
                      filename, NatToString(start + j));
      BatchVector(filename, chunks, embed, start, j, data);
      vectors := vectors + [v];
      j := j + 1;
    }
    if j < |batch| {
      BatchRestSkipped(filename, chunks, embed, start, start + j, end);
    }
  }

  /** Position `j` of a batch whose call returned `data` survives when
      `data` reaches it, and its vector is built from `data[j]`. */
  lemma BatchVector<V>(filename: string, chunks: seq<string>, embed: nat -> Embedding<V>,
                       start: nat, j: nat, data: seq<V>)
    requires start % BatchSize == 0 && j < BatchSize && start + j < |chunks|
    requires embed(start) == Embedded(data) && j < |data|
    ensures Survives(chunks, embed, start + j)
    ensures Built(filename, chunks, embed, start + j + 1)
            == Built(filename, chunks, embed, start + j)
               + [Vector(filename + "_chunk_" + NatToString(start + j), data[j], chunks[start + j],
                         filename, NatToString(start + j))]
  {
    BatchOffset(start, j);
    BuiltStep(filename, chunks, embed, start + j);
  }

  /** The loop of `handle_upload`: batches of five chunks from index 0,
      one embedding call per batch; a failed call skips its batch. */
  method BuildVectors<V>(filename: string, chunks: seq<string>, embed: nat -> Embedding<V>)
    returns (vectors: seq<Vector<V>>)
    ensures vectors == Built(filename, chunks, embed, |chunks|)
  {
    vectors := [];
    var i := 0;
    while i < |chunks|
      invariant i % BatchSize == 0
      invariant vectors == Built(filename, chunks, embed, Min(i, |chunks|))
      decreases |chunks| - i
    {
      var end := Min(i + BatchSize, |chunks|);
      match embed(i) {
        case EmbedFailed =>
          BatchRestSkipped(filename, chunks, embed, i, i, end);
        case Embedded(data) =>
          vectors := AppendBatch(filename, chunks, embed, i, data, vectors);
      }
      i := i + BatchSize;
    }
  }

  /** Vector `p` is that of the `p`-th surviving chunk: the vectors are
      those of the surviving chunks, in chunk order. */
  lemma {:induction false} BuiltMembers<V>(filename: string, chunks: seq<string>, embed: nat -> Embedding<V>, m: nat)
    requires m <= |chunks|
    ensures |Built(filename, chunks, embed, m)| == |Origins(chunks, embed, m)|
    ensures forall p :: 0 <= p < |Origins(chunks, embed, m)| ==>
              && Origins(chunks, embed, m)[p] < m
              && Survives(chunks, embed, Origins(chunks, embed, m)[p])
              && Built(filename, chunks, embed, m)[p] == MakeVector(filename, chunks, embed, Origins(chunks, embed, m)[p])
    ensures forall p, q :: 0 <= p < q < |Origins(chunks, embed, m)| ==>
              Origins(chunks, embed, m)[p] < Origins(chunks, embed, m)[q]
  {
    if m > 0 {
      BuiltMembers(filename, chunks, embed, m - 1);
    }
  }

  /** Every surviving chunk has its vector among those built. */
  lemma {:induction false} BuiltComplete<V>(filename: string, chunks: seq<string>, embed: nat -> Embedding<V>, m: nat)
    requires m <= |chunks|
    ensures forall k :: 0 <= k < m && Survives(chunks, embed, k) ==>
              MakeVector(filename, chunks, embed, k) in Built(filename, chunks, embed, m)
  {
    if m > 0 {
      BuiltComplete(filename, chunks, embed, m - 1);
      var b' := Built(filename, chunks, embed, m - 1);
      var b := Built(filename, chunks, embed, m);
      forall k | 0 <= k < m && Survives(chunks, embed, k)
        ensures MakeVector(filename, chunks, embed, k) in b
      {
        if k < m - 1 {
          var p :| 0 <= p < |b'| && b'[p] == MakeVector(filename, chunks, embed, k);
          assert b[p] == b'[p];
        } else {
          assert b[|b'|] == MakeVector(filename, chunks, embed, k);
        }
      }
    }
  }

  /** No two vectors built share an id. */
  lemma BuiltIdsDistinct<V>(filename: string, chunks: seq<string>, embed: nat -> Embedding<V>, m: nat)
    requires m <= |chunks|
    ensures forall p, q :: 0 <= p < q < |Built(filename, chunks, embed, m)| ==>
              Built(filename, chunks, embed, m)[p].id != Built(filename, chunks, embed, m)[q].id
  {
    var b := Built(filename, chunks, embed, m);
    var o := Origins(chunks, embed, m);
    BuiltMembers(filename, chunks, embed, m);
    forall p, q | 0 <= p < q < |b| ensures b[p].id != b[q].id {
      if b[p].id == b[q].id {
        VectorIdInjective(filename, o[p], o[q]);
      }
    }
  }

  /** A chunk has a vector exactly when its own batch's call returned an
      embedding for it: a failed batch contributes nothing, and the other
      batches are unaffected by it. */
  lemma VectorPresentIffSurvives<V>(filename: string, chunks: seq<string>, embed: nat -> Embedding<V>, k: nat)
    requires k < |chunks|
    ensures var b := Built(filename, chunks, embed, |chunks|);
            (exists p :: 0 <= p < |b| && b[p].id == VectorId(filename, k)) <==> Survives(chunks, embed, k)
  {
    var b := Built(filename, chunks, embed, |chunks|);
    var o := Origins(chunks, embed, |chunks|);
    BuiltMembers(filename, chunks, embed, |chunks|);
    if exists p :: 0 <= p < |b| && b[p].id == VectorId(filename, k) {
      var p :| 0 <= p < |b| && b[p].id == VectorId(filename, k);
      VectorIdInjective(filename, o[p], k);
    }
    if Survives(chunks, embed, k) {
      BuiltComplete(filename, chunks, embed, |chunks|);
      var v := MakeVector(filename, chunks, embed, k);
      var p :| 0 <= p < |b| && b[p] == v;
      assert b[p].id == VectorId(filename, k);
    }
  }

  /** Every batch's call returned at least one embedding per chunk of the
      batch. */
  predicate AllBatchesComplete<V>(chunks: seq<string>, embed: nat -> Embedding<V>)
  {
    forall k :: 0 <= k < |chunks| ==>
      embed(BatchOf(k)).Embedded? && k % BatchSize < |embed(BatchOf(k)).data|
  }

  /** When every batch succeeds, vector `k` is chunk `k`'s: id
      "<filename>_chunk_<k>", metadata text chunk `k`, chunk id "<k>";
      indices 0..len-1 each appear once, in order. */
  lemma {:induction false} AllSucceed<V>(filename: string, chunks: seq<string>, embed: nat -> Embedding<V>, m: nat)
    requires m <= |chunks|
    requires AllBatchesComplete(chunks, embed)
    ensures var b := Built(filename, chunks, embed, m);
            && |b| == m
            && forall k :: 0 <= k < m ==>
                 && b[k].id == VectorId(filename, k)
                 && b[k].text == chunks[k]
                 && b[k].filename == filename
                 && b[k].chunkId == NatToString(k)
  {
    if m > 0 {
      AllSucceed(filename, chunks, embed, m - 1);
      assert Survives(chunks, embed, m - 1);
      BuiltStep(filename, chunks, embed, m - 1);
      var b', b := Built(filename, chunks, embed, m - 1), Built(filename, chunks, embed, m);
      forall k | 0 <= k < m - 1 ensures b[k] == b'[k] {
      }
    }
  }
}

=== FILE: error_text.dfy ===
/** The error texts the dashboard derives from failed requests. The upload
    path and the chat path derive them differently. */
module ErrorText {
  import opened Text
  import opened JsValues
  import opened Wire

  /** The message of the `Error` rethrown when the upload `fetch` rejects. */
  function NetworkErrorText(t: Thrown): (m: string)
    ensures StartsWith(m, "Network error: ")
    ensures t.JsError? ==> Contains(m, t.message)
  {
    var detail := if t.JsError? then t.message else "Failed to connect to server";
    ContainsMiddle("Network error: ", detail,
      ". Please check if the backend is deployed and accessible.");
    "Network error: " + detail + ". Please check if the backend is deployed and accessible."
  }

  /** The status line of a response, `${res.status} ${res.statusText}`. */
  function StatusLine(r: Response): string
  {
    NatToString(r.status) + " " + r.statusText
  }

  /** The message of the `Error` thrown for a non-ok upload response: the
      body is read as text; if it parses as JSON (and is not `null`), the
      first truthy of `error` and `message`, else "Server error: <status>";
      if it does not parse (or is `null`, whose property read throws inside
      the same `try`), the raw text unless empty, else the status line; if
      the body cannot be read at all, "Upload failed with status …". */
  function UploadErrorText(r: Response): (m: string)
    ensures r.body.Unreadable? ==> m == "Upload failed with status " + StatusLine(r)
    ensures r.body.Received? && r.body.parsed.Parsed? && Readable(r.body.parsed.value) ==>
      var v := r.body.parsed.value;
      var e := Prop(v, "error").v;
      var g := Prop(v, "message").v;
      && (JsTruthy(e) ==> m == ToJsString(e))
      && (!JsTruthy(e) && JsTruthy(g) ==> m == ToJsString(g))
      && (!JsTruthy(e) && !JsTruthy(g) ==> m == "Server error: " + NatToString(r.status))
    ensures r.body.Received? && (r.body.parsed.NotJson? || !Readable(r.body.parsed.value)) ==>
      m == (if r.body.raw != "" then r.body.raw else "Server error: " + StatusLine(r))
  {
    match r.body
    case Unreadable(_) => "Upload failed with status " + StatusLine(r)
    case Received(raw, parsed) =>
      var fallback := if raw != "" then raw else "Server error: " + StatusLine(r);
      match parsed
      case NotJson(_) => fallback
      case Parsed(v) =>
        match Prop(v, "error")
        case TypeError(_) => fallback
        case Value(e) =>
          ToJsString(Or(Or(e, Prop(v, "message").v), Str("Server error: " + NatToString(r.status))))
  }

  /** The message of the `Error` thrown for a non-ok chat response. Unlike
      the upload path, the body is only tried as JSON: when that fails (or
      the value is `null`), the text is "Request failed with status <code>",
      without the status text and without the raw body. */
  function ChatErrorText(r: Response): (m: string)
    ensures ReadJson(r.body).JsonThrew? ==> m == "Request failed with status " + NatToString(r.status)
    ensures ReadJson(r.body).Json? && !Readable(ReadJson(r.body).value) ==>
              m == "Request failed with status " + NatToString(r.status)
    ensures ReadJson(r.body).Json? && Readable(ReadJson(r.body).value) ==>
      var v := ReadJson(r.body).value;
      var e := Prop(v, "error").v;
      var g := Prop(v, "message").v;
      && (JsTruthy(e) ==> m == ToJsString(e))
      && (!JsTruthy(e) && JsTruthy(g) ==> m == ToJsString(g))
      && (!JsTruthy(e) && !JsTruthy(g) ==> m == "Server error: " + NatToString(r.status))
  {
    var failed := "Request failed with status " + NatToString(r.status);
    match ReadJson(r.body)
    case JsonThrew(_) => failed
    case Json(v) =>
      match Prop(v, "error")
      case TypeError(_) => failed
      case Value(e) =>
        ToJsString(Or(Or(e, Prop(v, "message").v), Str("Server error: " + NatToString(r.status))))
  }

  /** A non-empty non-JSON error body shows the two derivations apart: the
      upload path reports the raw body, the chat path only the status code. */
  lemma UploadAndChatDiffer(status: nat, statusText: string, raw: string, parseError: string)
    requires raw != ""
    ensures var r := Response(status, statusText, Received(raw, NotJson(parseError)));
            && UploadErrorText(r) == raw
            && ChatErrorText(r) == "Request failed with status " + NatToString(status)
  {
  }

  /** With an empty non-JSON body, the upload path falls back to the status
      line with its status text, the chat path to the code alone. */
  lemma EmptyBodyFallbacks(status: nat, statusText: string, parseError: string)
    ensures var r := Response(status, statusText, Received("", NotJson(parseError)));
            && UploadErrorText(r) == "Server error: " + NatToString(status) + " " + statusText
            && ChatErrorText(r) == "Request failed with status " + NatToString(status)
  {
  }

  /** An empty-string `error` falls through to `message`, on both paths. */
  lemma EmptyErrorFieldFallsThrough(status: nat, statusText: string, raw: string)
    ensures var v := Obj(map["error" := Str(""), "message" := Str("quota exceeded")]);
            var r := Response(status, statusText, Received(raw, Parsed(v)));
            UploadErrorText(r) == "quota exceeded" && ChatErrorText(r) == "quota exceeded"
  {
  }
}

=== FILE: extraction.dfy ===
/** Text extraction on the client (`readPDFFile`, `readFileAsText` and the
    suffix dispatch between them). The PDF parser and the `FileReader` are
    replaced by their outcomes: the text items of each page, or the failure
    they report. */
module Extraction {
  import opened Text
  import opened JsValues

  /** What pdf.js yields for a document: the `str` of every text item, page
      by page in page order, or the value it threw. */
  datatype PdfRead = PdfPages(pages: seq<seq<string>>) | PdfThrew(thrown: Thrown)

  /** What the `FileReader` yields: a string result, a non-string result, or
      an error event whose error message may be missing (written ""). */
  datatype TextRead = TextLoaded(text: string) | TextNotString | TextReadError(message: string)

  /** Extracted text, or the message of the `Error` the extractor rejects
      with. */
  datatype Extracted = Extracted(text: string) | ExtractFailed(message: string)

  const PdfFailurePrefix: string := "Failed to parse PDF: "

  const PdfEmptyMessage: string := "PDF appears to be empty or contains no extractable text"

  /** The text one page contributes: its items joined by a space, then a
      newline. */
  function PageLine(items: seq<string>): string
  {
    Join(items, " ") + "\n"
  }

  function PageLines(pages: seq<seq<string>>): (r: seq<string>)
    ensures |r| == |pages|
    ensures forall i :: 0 <= i < |pages| ==> r[i] == PageLine(pages[i])
  {
    seq(|pages|, i requires 0 <= i < |pages| => PageLine(pages[i]))
  }

  /** The full text of a document: page lines for pages 1..N, in order. */
  function PdfText(pages: seq<seq<string>>): string
  {
    Concat(PageLines(pages))
  }

  /** The page loop of `readPDFFile`, accumulating `fullText` page by page;
      it builds exactly the concatenation of the page lines. */
  method AssemblePdfText(pages: seq<seq<string>>) returns (fullText: string)
    ensures fullText == PdfText(pages)
    ensures |fullText| >= |pages|
  {
    fullText := "";
    var pageNum := 0;
    while pageNum < |pages|
      invariant 0 <= pageNum <= |pages|
      invariant fullText == Concat(PageLines(pages[..pageNum]))
      invariant |fullText| >= pageNum
    {
      var pageText := Join(pages[pageNum], " ");
      ConcatAppend(PageLines(pages[..pageNum]), pageText + "\n");
      assert PageLines(pages[..pageNum + 1]) == PageLines(pages[..pageNum]) + [pageText + "\n"];
      fullText := fullText + pageText + "\n";
      pageNum := pageNum + 1;
    }
    assert pages[..pageNum] == pages;
  }

  /** `readPDFFile`: the page text, unless it is blank once trimmed; every
      failure is rewrapped as "Failed to parse PDF: …". */
  function ReadPdf(r: PdfRead): (x: Extracted)
    ensures x.ExtractFailed? ==> StartsWith(x.message, PdfFailurePrefix)
    ensures x.Extracted? ==> r.PdfPages? && x.text == PdfText(r.pages) && Trim(x.text) != ""
    ensures r.PdfThrew? && r.thrown.JsError? ==> x == ExtractFailed(PdfFailurePrefix + r.thrown.message)
    ensures r.PdfPages? && x.ExtractFailed? ==> x == ExtractFailed(PdfFailurePrefix + PdfEmptyMessage)
  {
    match r
    case PdfPages(pages) =>
      var fullText := PdfText(pages);
      if Trim(fullText) == "" then ExtractFailed(PdfFailurePrefix + PdfEmptyMessage)
      else Extracted(fullText)
    case PdfThrew(e) =>
      ExtractFailed(PdfFailurePrefix + (if e.JsError? then e.message else "Unknown error"))
  }

  /** `readFileAsText`. */
  function ReadText(r: TextRead): (x: Extracted)
    ensures x.Extracted? <==> r.TextLoaded?
    ensures r.TextLoaded? ==> x.text == r.text
  {
    match r
    case TextLoaded(t) => Extracted(t)
    case TextNotString => ExtractFailed("Failed to read file as text")
    case TextReadError(m) =>
      ExtractFailed("File read error: " + (if m == "" then "Unknown error" else m))
  }

  /** `fileObj.file.name.toLowerCase().endsWith('.pdf')`. Only the last four
      characters matter, and no character outside ASCII lower-cases to one
      of ".pdf", so ASCII lower-casing decides the test exactly. */
  predicate IsPdfName(name: string)
  {
    EndsWith(AsciiLowerString(name), ".pdf")
  }

  /** The dispatch at the head of the per-file step: PDF names go to the PDF
      reader, every other name to the text reader. */
  function ExtractFile(name: string, pdf: PdfRead, text: TextRead): (x: Extracted)
    ensures IsPdfName(name) ==> x == ReadPdf(pdf)
    ensures !IsPdfName(name) ==> x == ReadText(text)
  {
    if IsPdfName(name) then ReadPdf(pdf) else ReadText(text)
  }

  /** The dispatch depends on the last four characters only: a name goes
      to the PDF reader exactly when it ends in '.' followed by p, d and f,
      each in either case. */
  lemma PdfSuffixDispatch(name: string, pdf: PdfRead, text: TextRead)
    ensures var n := |name|;
            var suffix := n >= 4 && name[n - 4] == '.' && name[n - 3] in "pP"
                          && name[n - 2] in "dD" && name[n - 1] in "fF";
            && (suffix <==> IsPdfName(name))
            && (suffix ==> ExtractFile(name, pdf, text) == ReadPdf(pdf))
            && (!suffix ==> ExtractFile(name, pdf, text) == ReadText(text))
  {
    var n := |name|;
    var lower := AsciiLowerString(name);
    if n >= 4 {
      var tail := lower[n - 4..];
      assert tail[0] == AsciiLower(name[n - 4]) && tail[1] == AsciiLower(name[n - 3]);
      assert tail[2] == AsciiLower(name[n - 2]) && tail[3] == AsciiLower(name[n - 1]);
      if tail == ".pdf" {
        assert tail[0] == '.' && tail[1] == 'p' && tail[2] == 'd' && tail[3] == 'f';
      }
    }
  }

  lemma {:induction false} BlankAppend(a: string, b: string)
    ensures IsBlank(a + b) <==> IsBlank(a) && IsBlank(b)
  {
    if IsBlank(a) && IsBlank(b) {
      forall i | 0 <= i < |a + b| ensures IsJsWhitespace((a + b)[i]) {
        if i < |a| { assert (a + b)[i] == a[i]; } else { assert (a + b)[i] == b[i - |a|]; }
      }
    }
    if IsBlank(a + b) {
      forall i | 0 <= i < |a| ensures IsJsWhitespace(a[i]) { assert a[i] == (a + b)[i]; }
      forall i | 0 <= i < |b| ensures IsJsWhitespace(b[i]) { assert b[i] == (a + b)[|a| + i]; }
    }
  }

  /** Items joined by a blank separator are blank exactly when every item
      is. */
  lemma {:induction false} BlankJoin(parts: seq<string>, sep: string)
    requires IsBlank(sep)
    ensures IsBlank(Join(parts, sep)) <==> forall i :: 0 <= i < |parts| ==> IsBlank(parts[i])
  {
    if |parts| > 1 {
      var rest := parts[1..];
      BlankJoin(rest, sep);
      BlankAppend(parts[0] + sep, Join(rest, sep));
      BlankAppend(parts[0], sep);
      EveryFromHeadAndTail(parts);
    }
  }

  /** Every part is blank exactly when the head and every part of the tail
      are. */
  lemma EveryFromHeadAndTail(parts: seq<string>)
    requires |parts| > 0
    ensures (forall i :: 0 <= i < |parts| ==> IsBlank(parts[i]))
        <==> IsBlank(parts[0]) && forall i :: 0 <= i < |parts| - 1 ==> IsBlank(parts[1..][i])
  {
    if IsBlank(parts[0]) && forall i :: 0 <= i < |parts| - 1 ==> IsBlank(parts[1..][i]) {
      forall i | 0 <= i < |parts| ensures IsBlank(parts[i]) {
        if i > 0 { assert parts[i] == parts[1..][i - 1]; }
      }
    }
  }

  /** A concatenation is blank exactly when every piece is. */
  lemma {:induction false} BlankConcat(parts: seq<string>)
    ensures IsBlank(Concat(parts)) <==> forall i :: 0 <= i < |parts| ==> IsBlank(parts[i])
  {
    if |parts| > 0 {
      BlankConcat(parts[1..]);
      BlankAppend(parts[0], Concat(parts[1..]));
      EveryFromHeadAndTail(parts);
    }
  }

  /** Every text item of a page is blank. */
  predicate AllBlank(items: seq<string>)
  {
    forall i :: 0 <= i < |items| ==> IsBlank(items[i])
  }

  /** A page line is blank exactly when every item on the page is: the
      space separators and the closing newline are whitespace. */
  lemma PageLineBlank(items: seq<string>)
    ensures IsBlank(PageLine(items)) <==> AllBlank(items)
  {
    BlankJoin(items, " ");
    BlankAppend(Join(items, " "), "\n");
  }

  /** A PDF read that got its pages fails exactly when every text item of
      every page is blank (in particular when there are no pages): the
      separators it inserts are all whitespace, so `trim` removes them. */
  lemma PdfFailsIffAllItemsBlank(pages: seq<seq<string>>)
    ensures ReadPdf(PdfPages(pages)).ExtractFailed?
        <==> forall p, i :: 0 <= p < |pages| && 0 <= i < |pages[p]| ==> IsBlank(pages[p][i])
  {
    var lines := PageLines(pages);
    TrimEmptyIffBlank(PdfText(pages));
    BlankConcat(lines);
    forall p | 0 <= p < |pages| ensures IsBlank(lines[p]) <==> AllBlank(pages[p]) {
      PageLineBlank(pages[p]);
    }
    assert (forall p :: 0 <= p < |pages| ==> AllBlank(pages[p]))
        <==> forall p, i :: 0 <= p < |pages| && 0 <= i < |pages[p]| ==> IsBlank(pages[p][i]);
  }

  /** The text reader applies no blank test: a whitespace-only text file is
      extracted as it is. */
  lemma BlankTextFilePassesExtraction()
    ensures ExtractFile("notes.txt", PdfPages([]), TextLoaded(" ")) == Extracted(" ")
  {
    assert AsciiLowerString("notes.txt")[6] == 't';
  }

  /** The suffix test ignores case: any name ending in ".PDF" goes to the
      PDF reader. */
  lemma UpperCasePdfSuffix(stem: string)
    ensures IsPdfName(stem + ".PDF")
  {
    var name := stem + ".PDF";
    var lower := AsciiLowerString(name);
    var n := |stem|;
    assert name[n] == '.' && name[n + 1] == 'P' && name[n + 2] == 'D' && name[n + 3] == 'F';
    assert lower[n..] == ".pdf" by {
      assert lower[n] == '.' && lower[n + 1] == 'p' && lower[n + 2] == 'd' && lower[n + 3] == 'f';
    }
  }

  /** A PDF, whatever the case of its suffix, whose only item is blank fails
      extraction. */
  lemma BlankPdfFailsExtraction()
    ensures ExtractFile("notes.PDF", PdfPages([[" "]]), TextLoaded(" "))
            == ExtractFailed(PdfFailurePrefix + PdfEmptyMessage)
  {
    UpperCasePdfSuffix("notes");
    assert "notes" + ".PDF" == "notes.PDF";
    PdfFailsIffAllItemsBlank([[" "]]);
  }
}

=== FILE: js_values.dfy ===
/** JSON values as both sides of the wire see them, with the two languages'
    notions of truthiness, JavaScript's `||`, property reads and `String(v)`. */
module JsValues {
  import opened Text

  /** A value `JSON.parse` (or Python's `json.loads`) can produce, plus
      `Undefined` for a property that is not there. Numbers are integers. */
  datatype JsVal =
    | Undefined
    | Null
    | Bool(b: bool)
    | Num(n: int)
    | Str(s: string)
    | Arr(items: seq<JsVal>)
    | Obj(fields: map<string, JsVal>)

  /** JavaScript truthiness: `undefined`, `null`, `false`, `0` and `""` are
      falsy; every array and object is truthy, even an empty one. */
  predicate JsTruthy(v: JsVal)
  {
    match v
    case Undefined => false
    case Null => false
    case Bool(b) => b
    case Num(n) => n != 0
    case Str(s) => s != ""
    case Arr(_) => true
    case Obj(_) => true
  }

  /** Python truthiness of the same value after `json.loads` (`None` for a
      missing key): empty lists and dicts are falsy too. */
  predicate PyTruthy(v: JsVal)
  {
    match v
    case Undefined => false
    case Null => false
    case Bool(b) => b
    case Num(n) => n != 0
    case Str(s) => s != ""
    case Arr(xs) => xs != []
    case Obj(m) => m != map[]
  }

  /** The two notions disagree on exactly the empty array and the empty
      object, which JavaScript keeps and Python rejects. */
  lemma TruthinessDiffers(v: JsVal)
    ensures JsTruthy(v) != PyTruthy(v) <==> v == Arr([]) || v == Obj(map[])
  {
  }

  /** JavaScript `a || b`: the first operand when it is truthy, else the
      second, whatever the second is. */
  function Or(a: JsVal, b: JsVal): (r: JsVal)
    ensures r == a || r == b
    ensures JsTruthy(r) <==> JsTruthy(a) || JsTruthy(b)
    ensures JsTruthy(a) ==> r == a
    ensures !JsTruthy(a) ==> r == b
  {
    if JsTruthy(a) then a else b
  }

  /** A chain `a || b || c` picks its first truthy operand, or the last one
      when none is truthy, however it is grouped. */
  lemma OrChain(a: JsVal, b: JsVal, c: JsVal)
    ensures Or(Or(a, b), c) == Or(a, Or(b, c))
    ensures var r := Or(Or(a, b), c);
            && (JsTruthy(a) ==> r == a)
            && (!JsTruthy(a) && JsTruthy(b) ==> r == b)
            && (!JsTruthy(a) && !JsTruthy(b) ==> r == c)
  {
  }

  /** JavaScript `String(v)` on the JSON values this model carries (also
      what `new Error(v).message` holds). Numbers are integers only, an
      array renders as its elements joined by "," with `null` and
      `undefined` elements empty, and every object as "[object Object]". */
  function ToJsString(v: JsVal): string
    decreases v
  {
    match v
    case Undefined => "undefined"
    case Null => "null"
    case Bool(b) => if b then "true" else "false"
    case Num(n) => IntToString(n)
    case Str(s) => s
    case Arr(xs) => Join(ElementStrings(v, xs), ",")
    case Obj(_) => "[object Object]"
  }

  /** The strings `Array.prototype.join` uses for the elements of an array:
      `null` and `undefined` become "". */
  function ElementStrings(whole: JsVal, xs: seq<JsVal>): (r: seq<string>)
    requires whole.Arr? && whole.items == xs
    ensures |r| == |xs|
    decreases whole, 0
  {
    seq(|xs|, i requires 0 <= i < |xs| =>
      if xs[i].Null? || xs[i].Undefined? then "" else ToJsString(xs[i]))
  }

  /** The result of reading a property: its value, or the `TypeError` thrown
      when the receiver is `null` or `undefined`. */
  datatype Access = Value(v: JsVal) | TypeError(message: string)

  /** The message V8 gives the `TypeError` of a property read on `null`. */
  function NullReadMessage(receiver: string, key: string): string
  {
    "Cannot read properties of " + receiver + " (reading '" + key + "')"
  }

  /** A value whose properties can be read without a `TypeError`. */
  predicate Readable(v: JsVal)
  {
    !v.Null? && !v.Undefined?
  }

  /** JavaScript `v.key` on a parsed JSON value. Only objects carry the keys
      this program reads; on other non-null values the read is `undefined`. */
  function Prop(v: JsVal, key: string): (r: Access)
    ensures r.TypeError? <==> !Readable(v)
    ensures v.Obj? && key in v.fields ==> r == Value(v.fields[key])
    ensures v.Obj? && key !in v.fields ==> r == Value(Undefined)
    ensures !v.Obj? && r.Value? ==> r.v == Undefined
  {
    match v
    case Null => TypeError(NullReadMessage("null", key))
    case Undefined => TypeError(NullReadMessage("undefined", key))
    case Obj(m) => Value(if key in m then m[key] else Undefined)
    case _ => Value(Undefined)
  }

  /** Python `body.get(key)` on a dict: `None` (here `Null`) when absent. */
  function DictGet(m: map<string, JsVal>, key: string): JsVal
  {
    if key in m then m[key] else Null
  }

  /** A value raised by JavaScript code: an `Error` (which has a message) or
      anything else thrown. */
  datatype Thrown = JsError(message: string) | NonError
}

=== FILE: mount.dfy ===
/** The health check the dashboard runs once on mount: in live mode it asks
    the backend's root, and a failure it catches is reported in the
    transcript. The `fetch` outcome is an input; the check's timing against
    the user's first actions is not modelled. */
module Mount {
  import opened Wrappers
  import opened Text
  import opened JsValues
  import opened Wire
  import opened Session
  import opened Upload

  /** The transcript note of the mount-time health check, with the
      message of what it caught. */
  function MountWarning(detail: string): (m: Message)
    ensures m.role == Assistant && m.sources == None && Contains(m.content, detail)
  {
    var prefix := "Warning: Cannot connect to backend at " + BackendUrl
                  + ". Please ensure the backend is deployed. Error: ";
    ContainsMiddle(prefix, detail, "");
    assert prefix + detail + "" == prefix + detail;
    Say(prefix + detail)
  }

  /** What the health check run on mount catches, if anything: in live
      mode, a rejected `fetch` or the failed parse of an ok response's
      body. A non-ok status is only logged. */
  function MountFailure(mode: Mode, t: Transport): Option<string>
  {
    if mode == Simulation then None
    else match t
      case NetworkFailure(e) => Some(if e.JsError? then e.message else "Unknown error")
      case Responded(res) =>
        if Ok(res) && ReadJson(res.body).JsonThrew? then Some(ReadJson(res.body).message) else None
  }

  /** The health check run on mount: a caught failure appends one warning;
      nothing else changes. */
  function CheckBackendOnMount(s: Session, mode: Mode, t: Transport): (r: Session)
    ensures r.files == s.files && r.input == s.input && r.isProcessing == s.isProcessing
    ensures |s.messages| <= |r.messages| <= |s.messages| + 1
    ensures r.messages[..|s.messages|] == s.messages
    ensures |r.messages| > |s.messages| ==> r.messages[|s.messages|].role == Assistant
  {
    var caught := MountFailure(mode, t);
    if caught.None? then s
    else
      var r := s.(messages := s.messages + [MountWarning(caught.value)]);
      assert r.messages[..|s.messages|] == s.messages;
      r
  }

  /** The mount check warns exactly in live mode when the backend could not
      be reached or answered ok with a body that is not JSON; the warning
      carries the caught message. */
  lemma MountWarnsIffUnreachable(s: Session, mode: Mode, t: Transport)
    ensures var warned := mode == Live && (t.NetworkFailure? ||
                            (Ok(t.response) && ReadJson(t.response.body).JsonThrew?));
            |CheckBackendOnMount(s, mode, t).messages| == |s.messages| + (if warned then 1 else 0)
    ensures mode == Live && t.NetworkFailure? && t.thrown.JsError? ==>
              var ms := CheckBackendOnMount(s, mode, t).messages;
              |ms| == |s.messages| + 1 && Contains(ms[|s.messages|].content, t.thrown.message)
  {
  }
}

=== FILE: session.dfy ===
/** The dashboard's client state: the knowledge-base file list, the chat
    transcript, the pending input and the in-flight flag. React's
    `useState` cells become fields of one immutable value, and each handler
    becomes a function from the old value to the new one. */
module Session {
  import opened Wrappers

  datatype Role = User | Assistant

  /** A transcript entry. `sources` is absent on user and error messages. */
  datatype Message = Message(role: Role, content: string, sources: Option<seq<string>>)

  datatype Status = Pending | Uploading | Indexed | Error

  /** One knowledge-base entry. Entries are keyed by name, which need not
      be unique. */
  datatype DocFile = DocFile(name: string, status: Status)

  /** The `isDemoMode` toggle: `Live` talks to the backend, `Simulation`
      fabricates delayed answers. */
  datatype Mode = Live | Simulation

  datatype Session = Session(
    files: seq<DocFile>,
    messages: seq<Message>,
    input: string,
    isProcessing: bool)

  /** A plain assistant message without sources. */
  function Say(content: string): Message
  {
    Message(Assistant, content, None)
  }

  /** `updateFileStatus`: every entry whose name equals `name` takes the new
      status, wherever in the list it sits; all other entries stay. */
  function UpdateFileStatus(files: seq<DocFile>, name: string, status: Status): (r: seq<DocFile>)
    ensures |r| == |files|
    ensures forall i :: 0 <= i < |r| ==> r[i].name == files[i].name
    ensures forall i :: 0 <= i < |r| && files[i].name == name ==> r[i].status == status
    ensures forall i :: 0 <= i < |r| && files[i].name != name ==> r[i] == files[i]
  {
    seq(|files|, i requires 0 <= i < |files| =>
      if files[i].name == name then DocFile(files[i].name, status) else files[i])
  }

  /** A later update of the same name overrides an earlier one entirely. */
  lemma UpdateLastWins(files: seq<DocFile>, name: string, s1: Status, s2: Status)
    ensures UpdateFileStatus(UpdateFileStatus(files, name, s1), name, s2)
         == UpdateFileStatus(files, name, s2)
  {
  }

  /** Updates of different names commute. */
  lemma UpdatesCommute(files: seq<DocFile>, n1: string, s1: Status, n2: string, s2: Status)
    requires n1 != n2
    ensures UpdateFileStatus(UpdateFileStatus(files, n1, s1), n2, s2)
         == UpdateFileStatus(UpdateFileStatus(files, n2, s2), n1, s1)
  {
  }

  /** The first `setFiles` of an upload: one `pending` entry per selected
      file, in selection order, after every existing entry. */
  function AppendPending(files: seq<DocFile>, names: seq<string>): (r: seq<DocFile>)
    ensures |r| == |files| + |names|
    ensures r[..|files|] == files
    ensures forall i :: 0 <= i < |names| ==> r[|files| + i] == DocFile(names[i], Pending)
  {
    files + seq(|names|, i requires 0 <= i < |names| => DocFile(names[i], Pending))
  }

  /** Because entries are keyed by name, an update aimed at a file of a new
      batch also rewrites an entry of an earlier batch that has the same
      name: here "a.txt", indexed earlier, is set back to `uploading`. */
  lemma UpdateReachesEarlierBatch()
    ensures var earlier := [DocFile("a.txt", Indexed)];
            var files := AppendPending(earlier, ["a.txt"]);
            UpdateFileStatus(files, "a.txt", Uploading)
              == [DocFile("a.txt", Uploading), DocFile("a.txt", Uploading)]
  {
    var files := AppendPending([DocFile("a.txt", Indexed)], ["a.txt"]);
    assert files == [DocFile("a.txt", Indexed), DocFile("a.txt", Pending)];
  }
}

=== FILE: text.dfy ===
/** String operations shared by the client and the backend: joining,
    concatenation, JavaScript's `trim`, substring containment and decimal
    rendering of naturals. Strings are sequences of Unicode scalar values. */
module Text {

  /** `parts.join(sep)` in JavaScript, `sep.join(parts)` in Python. */
  function Join(parts: seq<string>, sep: string): string
  {
    if |parts| == 0 then ""
    else if |parts| == 1 then parts[0]
    else parts[0] + sep + Join(parts[1..], sep)
  }

  /** Appending a part appends the separator and the part. */
  lemma {:induction false} JoinSnoc(parts: seq<string>, sep: string, last: string)
    requires parts != []
    ensures Join(parts + [last], sep) == Join(parts, sep) + sep + last
  {
    if |parts| == 1 {
      assert parts + [last] == [parts[0], last];
      assert [parts[0], last][1..] == [last];
    } else {
      assert (parts + [last])[1..] == parts[1..] + [last];
      JoinSnoc(parts[1..], sep, last);
    }
  }

  /** Concatenation of all parts, in order. */
  function Concat(parts: seq<string>): string
  {
    if |parts| == 0 then "" else parts[0] + Concat(parts[1..])
  }

  lemma {:induction false} ConcatAppend(parts: seq<string>, last: string)
    ensures Concat(parts + [last]) == Concat(parts) + last
  {
    if |parts| == 0 {
      assert parts + [last] == [last];
    } else {
      assert (parts + [last])[1..] == parts[1..] + [last];
      ConcatAppend(parts[1..], last);
    }
  }

  /** The characters ECMAScript's `String.prototype.trim` removes: the
      WhiteSpace production (TAB, VT, FF, SP, NBSP, ZWNBSP and category Zs)
      and the LineTerminator production (LF, CR, LS, PS). */
  predicate IsJsWhitespace(c: char)
  {
    || c == '\t' || c == '\U{000B}' || c == '\U{000C}' || c == ' '
    || c == '\U{00A0}' || c == '\U{FEFF}' || c == '\U{1680}'
    || ('\U{2000}' <= c <= '\U{200A}')
    || c == '\U{202F}' || c == '\U{205F}' || c == '\U{3000}'
    || c == '\n' || c == '\r' || c == '\U{2028}' || c == '\U{2029}'
  }

  /** Every character of `s` is whitespace (vacuously true of ""). */
  predicate IsBlank(s: string)
  {
    forall i :: 0 <= i < |s| ==> IsJsWhitespace(s[i])
  }

  /** `s` with its leading whitespace removed. */
  function TrimStart(s: string): (r: string)
    ensures |r| <= |s| && r == s[|s| - |r|..]
    ensures IsBlank(s[..|s| - |r|])
    ensures r == "" || !IsJsWhitespace(r[0])
  {
    if |s| > 0 && IsJsWhitespace(s[0]) then
      var r := TrimStart(s[1..]);
      assert s[..|s| - |r|] == [s[0]] + s[1..][..|s| - 1 - |r|];
      assert r == s[|s| - |r|..];
      r
    else s
  }

  /** `s` with its trailing whitespace removed. */
  function TrimEnd(s: string): (r: string)
    ensures |r| <= |s| && r == s[..|r|]
    ensures IsBlank(s[|r|..])
    ensures r == "" || !IsJsWhitespace(r[|r| - 1])
  {
    if |s| > 0 && IsJsWhitespace(s[|s| - 1]) then
      var init := s[..|s| - 1];
      var r := TrimEnd(init);
      assert s[|r|..] == init[|r|..] + [s[|s| - 1]];
      assert r == s[..|r|];
      r
    else s
  }

  /** JavaScript's `s.trim()`. */
  function Trim(s: string): string
  {
    TrimEnd(TrimStart(s))
  }

  /** `s.trim()` is the empty (falsy) string exactly when `s` is blank. */
  lemma TrimEmptyIffBlank(s: string)
    ensures Trim(s) == "" <==> IsBlank(s)
  {
    var t := TrimStart(s);
    var d := |s| - |t|;
    if Trim(s) == "" {
      assert IsBlank(t[0..]);
      forall i | 0 <= i < |s|
        ensures IsJsWhitespace(s[i])
      {
        if i < d {
          assert s[i] == s[..d][i];
        } else {
          assert s[i] == t[i - d];
        }
      }
    } else {
      assert t != "" && s[d] == t[0];
    }
  }

  /** `sub` occurs in `s` as a contiguous run (`s.includes(sub)`). */
  predicate Contains(s: string, sub: string)
  {
    exists i, j :: 0 <= i <= j <= |s| && s[i..j] == sub
  }

  /** A string contains every piece it was built around. */
  lemma ContainsMiddle(a: string, sub: string, b: string)
    ensures Contains(a + sub + b, sub)
  {
    var s := a + sub + b;
    assert s[|a|..|a| + |sub|] == sub;
  }

  /** Text around a string keeps what the string contains. */
  lemma ContainsWithin(s: string, sub: string, pre: string, post: string)
    requires Contains(s, sub)
    ensures Contains(pre + s + post, sub)
  {
    var i, j :| 0 <= i <= j <= |s| && s[i..j] == sub;
    assert (pre + s + post)[|pre| + i .. |pre| + j] == s[i..j];
  }

  /** Every part occurs in the joined string. */
  lemma {:induction false} JoinContains(parts: seq<string>, sep: string, k: nat)
    requires k < |parts|
    ensures Contains(Join(parts, sep), parts[k])
  {
    if |parts| == 1 {
      ContainsMiddle("", parts[0], "");
      assert "" + parts[0] + "" == parts[0];
    } else if k == 0 {
      ContainsMiddle("", parts[0], sep + Join(parts[1..], sep));
      assert "" + parts[0] + (sep + Join(parts[1..], sep)) == Join(parts, sep);
    } else {
      JoinContains(parts[1..], sep, k - 1);
      ContainsWithin(Join(parts[1..], sep), parts[k], parts[0] + sep, "");
      assert parts[0] + sep + Join(parts[1..], sep) + "" == Join(parts, sep);
    }
  }

  /** `s.startsWith(prefix)`. */
  predicate StartsWith(s: string, prefix: string)
  {
    |prefix| <= |s| && s[..|prefix|] == prefix
  }

  /** `s.endsWith(suffix)`. */
  predicate EndsWith(s: string, suffix: string)
  {
    |suffix| <= |s| && s[|s| - |suffix|..] == suffix
  }

  /** The ASCII part of `toLowerCase`: 'A'..'Z' map to 'a'..'z'. */
  function AsciiLower(c: char): char
  {
    if 'A' <= c <= 'Z' then (c as int + 32) as char else c
  }

  function AsciiLowerString(s: string): (r: string)
    ensures |r| == |s|
    ensures forall i :: 0 <= i < |s| ==> r[i] == AsciiLower(s[i])
  {
    seq(|s|, i requires 0 <= i < |s| => AsciiLower(s[i]))
  }

  function Digit(d: nat): char
    requires d < 10
  {
    "0123456789"[d]
  }

  /** Decimal rendering of a natural, as JavaScript's `${n}` and Python's
      `str(n)` write it: no sign, no leading zeros. */
  function NatToString(n: nat): (r: string)
    ensures |r| >= 1
    ensures n < 10 <==> |r| == 1
    ensures forall i :: 0 <= i < |r| ==> '0' <= r[i] <= '9'
  {
    if n < 10 then [Digit(n)] else NatToString(n / 10) + [Digit(n % 10)]
  }

  lemma DigitInjective(a: nat, b: nat)
    requires a < 10 && b < 10 && Digit(a) == Digit(b)
    ensures a == b
  {
  }

  /** Distinct naturals have distinct decimal renderings. */
  lemma {:induction false} NatToStringInjective(a: nat, b: nat)
    requires NatToString(a) == NatToString(b)
    ensures a == b
  {
    var s := NatToString(a);
    if a < 10 {
      DigitInjective(a, b);
    } else {
      assert b >= 10;
      assert s[|s| - 1] == Digit(a % 10) == Digit(b % 10);
      DigitInjective(a % 10, b % 10);
      assert NatToString(a / 10) == s[..|s| - 1] == NatToString(b / 10);
      NatToStringInjective(a / 10, b / 10);
    }
  }

  /** Signed decimal rendering of an integer. */
  function IntToString(n: int): string
  {
    if n >= 0 then NatToString(n) else "-" + NatToString(-n)
  }
}

=== FILE: upload.dfy ===
/** `handleFileUpload` as a pure step. The probe result and, per selected
    file, the reader outcomes and the upload `fetch` outcome are given as
    inputs. The step first appends the pending entries, then produces the
    ordered list of state updates the handler performs (status updates and
    transcript appends), and applies them in order. */
module Upload {
  import opened Wrappers
  import opened Text
  import opened JsValues
  import opened Wire
  import opened Session
  import opened Extraction
  import opened ErrorText

  const BackendUrl: string := "https://empire-rag-backend.soorya220104.workers.dev"

  /** The transcript note when the probe fails (it starts with U+26A0 U+FE0F,
      a warning sign). */
  const OfflineMessage: string :=
    "\U{26A0}\U{FE0F} Cannot connect to backend at " + BackendUrl
    + ". Please ensure the backend is deployed. Run: npx wrangler deploy"

  const EmptyFileMessage: string := "File appears to be empty"

  /** One selected file: its name, what each reader would yield for it, and
      what the upload `fetch` would yield. */
  datatype FileInput = FileInput(name: string, pdf: PdfRead, text: TextRead, upload: Transport)

  /** The outcome of processing one file: stored by the backend, stored in
      simulation, or rejected with the message of the `Error` caught. */
  datatype Ingest = Stored | Simulated | Rejected(reason: string)

  /** The body of the per-file `try`: extract, require non-empty text, then
      upload (live) or pretend (simulation). */
  function IngestFile(mode: Mode, f: FileInput): (x: Ingest)
    ensures x.Stored? ==> mode == Live
    ensures x.Simulated? ==> mode == Simulation
    ensures !x.Rejected? ==> ExtractFile(f.name, f.pdf, f.text).Extracted?
    ensures ExtractFile(f.name, f.pdf, f.text).ExtractFailed? ==>
              x == Rejected(ExtractFile(f.name, f.pdf, f.text).message)
    ensures ExtractFile(f.name, f.pdf, f.text) == Extracted("") ==> x == Rejected(EmptyFileMessage)
  {
    match ExtractFile(f.name, f.pdf, f.text)
    case ExtractFailed(m) => Rejected(m)
    case Extracted(text) =>
      if text == "" then Rejected(EmptyFileMessage)
      else if mode.Simulation? then Simulated
      else match f.upload
        case NetworkFailure(t) => Rejected(NetworkErrorText(t))
        case Responded(r) =>
          if !Ok(r) then Rejected(UploadErrorText(r))
          else match ReadJson(r.body)
            case JsonThrew(m) => Rejected(m)
            case Json(_) => Stored
  }

  /** Once extraction has produced non-empty text, simulation always
      simulates and touches no transport; live mode stores exactly when the
      upload answered with a 2xx status and a JSON body, and otherwise
      rejects with the text of the failure: the network error text, the
      upload error text, or the message of the failed body parse. */
  lemma IngestNonEmptyText(mode: Mode, f: FileInput, text: string)
    requires ExtractFile(f.name, f.pdf, f.text) == Extracted(text) && text != ""
    ensures mode == Simulation ==> IngestFile(mode, f) == Simulated
    ensures mode == Live && f.upload.NetworkFailure? ==>
              IngestFile(mode, f) == Rejected(NetworkErrorText(f.upload.thrown))
    ensures mode == Live && f.upload.Responded? && !Ok(f.upload.response) ==>
              IngestFile(mode, f) == Rejected(UploadErrorText(f.upload.response))
    ensures mode == Live && f.upload.Responded? && Ok(f.upload.response) ==>
              && (ReadJson(f.upload.response.body).Json? ==> IngestFile(mode, f) == Stored)
              && (ReadJson(f.upload.response.body).JsonThrew? ==>
                    IngestFile(mode, f) == Rejected(ReadJson(f.upload.response.body).message))
    ensures mode == Live ==>
              (IngestFile(mode, f) == Stored <==>
                 f.upload.Responded? && Ok(f.upload.response) && ReadJson(f.upload.response.body).Json?)
  {
  }

  /** The status a file ends in. */
  function Terminal(x: Ingest): (st: Status)
    ensures st == Error <==> x.Rejected?
    ensures st == Error || st == Indexed
  {
    if x.Rejected? then Error else Indexed
  }

  function FailureMessage(name: string, reason: string): string
  {
    "Failed to upload \"" + name + "\": " + reason + ". Please check the console for more details."
  }

  function SuccessMessage(name: string): string
  {
    "Successfully indexed \"" + name + "\". You can now ask questions about this document."
  }

  /** One state update of the handler: `updateFileStatus` or an append to
      the transcript. */
  datatype Effect = SetStatus(name: string, status: Status) | Post(message: Message)

  function Apply(s: Session, e: Effect): Session
  {
    match e
    case SetStatus(n, st) => s.(files := UpdateFileStatus(s.files, n, st))
    case Post(m) => s.(messages := s.messages + [m])
  }

  /** The updates applied in order. */
  function ApplyAll(s: Session, es: seq<Effect>): Session
    decreases |es|
  {
    if |es| == 0 then s else ApplyAll(Apply(s, es[0]), es[1..])
  }

  /** The transcript appends among `es`, in order. */
  function Posted(es: seq<Effect>): seq<Message>
  {
    if |es| == 0 then []
    else (if es[0].Post? then [es[0].message] else []) + Posted(es[1..])
  }

  /** The statuses `es` assigns to the name `n`, in order. */
  function Trace(es: seq<Effect>, n: string): seq<Status>
  {
    if |es| == 0 then []
    else (if es[0].SetStatus? && es[0].name == n then [es[0].status] else []) + Trace(es[1..], n)
  }

  /** The message a file's outcome posts, if any. */
  function OutcomeMessages(mode: Mode, f: FileInput): (r: seq<Message>)
    ensures |r| <= 1
    ensures r == [] <==> IngestFile(mode, f).Simulated?
    ensures r != [] ==> r[0].role == Assistant && r[0].sources == None
  {
    MessagesFor(f.name, IngestFile(mode, f))
  }

  /** The messages an outcome `x` of the file named `name` posts. */
  function MessagesFor(name: string, x: Ingest): (r: seq<Message>)
    ensures |r| <= 1
    ensures r == [] <==> x.Simulated?
    ensures r != [] ==> r[0].role == Assistant && r[0].sources == None
  {
    match x
    case Rejected(reason) => [Say(FailureMessage(name, reason))]
    case Stored => [Say(SuccessMessage(name))]
    case Simulated => []
  }

  /** Transcript appends of the given messages, in order. */
  function Posts(ms: seq<Message>): (r: seq<Effect>)
    ensures |r| == |ms| && forall i :: 0 <= i < |ms| ==> r[i] == Post(ms[i])
  {
    if ms == [] then [] else [Post(ms[0])] + Posts(ms[1..])
  }

  /** The updates for one file: `uploading`, then its terminal status,
      then (in live mode, or on failure) one transcript message. */
  function FileEffects(mode: Mode, f: FileInput): (r: seq<Effect>)
    ensures |r| == 2 + |OutcomeMessages(mode, f)| && |r| <= 3
    ensures r[0] == SetStatus(f.name, Uploading) && r[1].SetStatus? && r[1].name == f.name
    ensures r[1].status == Error <==> IngestFile(mode, f).Rejected?
    ensures |r| == 3 ==> r[2].Post?
  {
    StatusesThenPosts(f.name, Terminal(IngestFile(mode, f)), OutcomeMessages(mode, f))
  }

  /** `uploading`, then `st`, both for `name`, then the given messages. */
  function StatusesThenPosts(name: string, st: Status, ms: seq<Message>): (r: seq<Effect>)
    ensures |r| == 2 + |ms|
    ensures r[0] == SetStatus(name, Uploading) && r[1] == SetStatus(name, st)
    ensures |ms| > 0 ==> r[2] == Post(ms[0])
  {
    [SetStatus(name, Uploading), SetStatus(name, st)] + Posts(ms)
  }

  /** The sequential loop over the batch: each file runs to completion
      before the next one starts. */
  function BatchEffects(mode: Mode, fs: seq<FileInput>): seq<Effect>
  {
    if |fs| == 0 then [] else FileEffects(mode, fs[0]) + BatchEffects(mode, fs[1..])
  }

  /** Everything after the pending entries: in live mode with the backend
      unreachable, the warning and an `error` status for every selected
      name; otherwise the per-file loop. The probe is consulted only in
      live mode. */
  function UploadEffects(mode: Mode, online: bool, fs: seq<FileInput>): seq<Effect>
  {
    if mode == Live && !online then
      [Post(Say(OfflineMessage))] + seq(|fs|, i requires 0 <= i < |fs| => SetStatus(fs[i].name, Error))
    else BatchEffects(mode, fs)
  }

  function InputNames(fs: seq<FileInput>): (r: seq<string>)
    ensures |r| == |fs|
    ensures forall i :: 0 <= i < |fs| ==> r[i] == fs[i].name
  {
    seq(|fs|, i requires 0 <= i < |fs| => fs[i].name)
  }

  /** `handleFileUpload`. `selection` is `e.target.files` (absent: nothing
      happens); `online` is what the probe would report. */
  function HandleFileUpload(s: Session, mode: Mode, online: bool, selection: Option<seq<FileInput>>): (r: Session)
    ensures selection.None? ==> r == s
    ensures selection.Some? ==> |r.files| == |s.files| + |selection.value|
    ensures r.input == s.input && r.isProcessing == s.isProcessing
  {
    match selection
    case None => s
    case Some(fs) =>
      var p := s.(files := AppendPending(s.files, InputNames(fs)));
      ApplyAllShape(p, UploadEffects(mode, online, fs));
      ApplyAll(p, UploadEffects(mode, online, fs))
  }

  // ---------------------------------------------------------------------
  // How a list of updates acts on the state

  /** Updates keep the list's length and names, touch neither the input nor
      the in-flight flag, and append exactly the posted messages. */
  lemma {:induction false} ApplyAllShape(s: Session, es: seq<Effect>)
    decreases |es|
    ensures var t := ApplyAll(s, es);
            && |t.files| == |s.files|
            && (forall k :: 0 <= k < |s.files| ==> t.files[k].name == s.files[k].name)
            && t.messages == s.messages + Posted(es)
            && t.input == s.input && t.isProcessing == s.isProcessing
  {
    if |es| > 0 {
      ApplyAllShape(Apply(s, es[0]), es[1..]);
    }
  }

  /** Each entry ends in the last status assigned to its name, or keeps its
      status when its name is never assigned; entries of earlier batches
      included. */
  lemma {:induction false} ApplyAllStatus(s: Session, es: seq<Effect>, k: nat)
    requires k < |s.files|
    decreases |es|
    ensures k < |ApplyAll(s, es).files|
    ensures var tr := Trace(es, s.files[k].name);
            ApplyAll(s, es).files[k].status
              == if tr == [] then s.files[k].status else tr[|tr| - 1]
  {
    ApplyAllShape(s, es);
    if |es| > 0 {
      ApplyAllShape(Apply(s, es[0]), es[1..]);
      ApplyAllStatus(Apply(s, es[0]), es[1..], k);
    }
  }

  lemma {:induction false} TraceAppend(a: seq<Effect>, b: seq<Effect>, n: string)
    ensures Trace(a + b, n) == Trace(a, n) + Trace(b, n)
  {
    if |a| > 0 {
      assert (a + b)[1..] == a[1..] + b;
      TraceAppend(a[1..], b, n);
    } else {
      assert a + b == b;
    }
  }

  lemma {:induction false} PostedAppend(a: seq<Effect>, b: seq<Effect>)
    ensures Posted(a + b) == Posted(a) + Posted(b)
  {
    if |a| > 0 {
      assert (a + b)[1..] == a[1..] + b;
      PostedAppend(a[1..], b);
    } else {
      assert a + b == b;
    }
  }

  // ---------------------------------------------------------------------
  // One file

  /** Transcript appends assign no status and post their messages. */
  lemma {:induction false} PostsEffects(ms: seq<Message>, n: string)
    ensures Trace(Posts(ms), n) == []
    ensures Posted(Posts(ms)) == ms
  {
    if ms != [] {
      PostsEffects(ms[1..], n);
      assert Posts(ms)[1..] == Posts(ms[1..]);
    }
  }

  /** Two status updates of one name followed by transcript appends. */
  lemma TwoStatusesThenPosts(name: string, a: Status, b: Status, ms: seq<Message>, n: string)
    ensures Trace([SetStatus(name, a), SetStatus(name, b)] + Posts(ms), n) == (if n == name then [a, b] else [])
    ensures Posted([SetStatus(name, a), SetStatus(name, b)] + Posts(ms)) == ms
  {
    var head := [SetStatus(name, a), SetStatus(name, b)];
    TraceAppend(head, Posts(ms), n);
    PostedAppend(head, Posts(ms));
    PostsEffects(ms, n);
    assert head[1..][1..] == [];
  }

  /** A file's name is set to `uploading` and then to its terminal status,
      and no other name is touched; the messages posted are its outcome
      messages. */
  lemma FileEffectsSpec(mode: Mode, f: FileInput)
    ensures Trace(FileEffects(mode, f), f.name) == [Uploading, Terminal(IngestFile(mode, f))]
    ensures forall n :: n != f.name ==> Trace(FileEffects(mode, f), n) == []
    ensures Posted(FileEffects(mode, f)) == OutcomeMessages(mode, f)
  {
    var x := Terminal(IngestFile(mode, f));
    var ms := OutcomeMessages(mode, f);
    forall n ensures Trace(FileEffects(mode, f), n) == (if n == f.name then [Uploading, x] else []) {
      TwoStatusesThenPosts(f.name, Uploading, x, ms, n);
    }
    TwoStatusesThenPosts(f.name, Uploading, x, ms, f.name);
  }

  /** A failure or a live success posts one message naming the file, a
      failure's message carrying the error text; a simulated success posts
      none. */
  lemma OutcomeMessagesSpec(mode: Mode, f: FileInput)
    ensures |OutcomeMessages(mode, f)| == (if IngestFile(mode, f).Simulated? then 0 else 1)
    ensures forall m :: m in OutcomeMessages(mode, f) ==> Contains(m.content, f.name)
    ensures IngestFile(mode, f).Rejected? ==>
              Contains(OutcomeMessages(mode, f)[0].content, IngestFile(mode, f).reason)
  {
    MessagesForSpec(f.name, IngestFile(mode, f));
  }

  /** The texts behind `OutcomeMessagesSpec`, for any outcome. */
  lemma MessagesForSpec(name: string, x: Ingest)
    ensures forall m :: m in MessagesFor(name, x) ==> Contains(m.content, name)
    ensures x.Rejected? ==> Contains(MessagesFor(name, x)[0].content, x.reason)
  {
    match x
    case Rejected(reason) =>
      var tail := ". Please check the console for more details.";
      ContainsMiddle("Failed to upload \"", name, "\": " + reason + tail);
      assert FailureMessage(name, reason) == "Failed to upload \"" + name + ("\": " + reason + tail);
      ContainsMiddle("Failed to upload \"" + name + "\": ", reason, tail);
    case Stored =>
      ContainsMiddle("Successfully indexed \"", name,
        "\". You can now ask questions about this document.");
    case Simulated =>
  }

  // ---------------------------------------------------------------------
  // A whole batch

  /** No two selected files share a name. */
  predicate DistinctNames(fs: seq<FileInput>)
  {
    forall i, j :: 0 <= i < j < |fs| ==> fs[i].name != fs[j].name
  }

  /** The loop's messages: each file's outcome message, in file order. */
  function BatchMessages(mode: Mode, fs: seq<FileInput>): seq<Message>
  {
    if |fs| == 0 then [] else OutcomeMessages(mode, fs[0]) + BatchMessages(mode, fs[1..])
  }

  lemma {:induction false} BatchPosted(mode: Mode, fs: seq<FileInput>)
    ensures Posted(BatchEffects(mode, fs)) == BatchMessages(mode, fs)
  {
    if |fs| > 0 {
      PostedAppend(FileEffects(mode, fs[0]), BatchEffects(mode, fs[1..]));
      FileEffectsSpec(mode, fs[0]);
      BatchPosted(mode, fs[1..]);
    }
  }

  /** In live mode every file posts exactly one message. */
  lemma {:induction false} LiveBatchMessageCount(fs: seq<FileInput>)
    ensures |BatchMessages(Live, fs)| == |fs|
  {
    if |fs| > 0 {
      OutcomeMessagesSpec(Live, fs[0]);
      LiveBatchMessageCount(fs[1..]);
    }
  }

  /** A name outside the batch is never assigned; a batch name (names being
      distinct) is assigned `uploading` and then its file's terminal status. */
  lemma BatchTrace(mode: Mode, fs: seq<FileInput>, n: string)
    requires DistinctNames(fs)
    ensures (forall i :: 0 <= i < |fs| ==> fs[i].name != n) ==> Trace(BatchEffects(mode, fs), n) == []
    ensures forall i :: 0 <= i < |fs| && fs[i].name == n ==>
              Trace(BatchEffects(mode, fs), n) == [Uploading, Terminal(IngestFile(mode, fs[i]))]
  {
    if forall i :: 0 <= i < |fs| ==> fs[i].name != n {
      BatchTraceOutside(mode, fs, n);
    }
    forall i | 0 <= i < |fs| && fs[i].name == n
      ensures Trace(BatchEffects(mode, fs), n) == [Uploading, Terminal(IngestFile(mode, fs[i]))]
    {
      BatchTraceAt(mode, fs, i);
    }
  }

  lemma DistinctTail(fs: seq<FileInput>)
    requires |fs| > 0 && DistinctNames(fs)
    ensures DistinctNames(fs[1..])
  {
    forall a, b | 0 <= a < b < |fs| - 1 ensures fs[1..][a].name != fs[1..][b].name {
      assert fs[1..][a] == fs[a + 1] && fs[1..][b] == fs[b + 1];
    }
  }

  /** With distinct names, file `i`'s name is assigned exactly `uploading`
      and then file `i`'s terminal status. */
  lemma {:induction false} BatchTraceAt(mode: Mode, fs: seq<FileInput>, i: nat)
    requires DistinctNames(fs) && i < |fs|
    ensures Trace(BatchEffects(mode, fs), fs[i].name) == [Uploading, Terminal(IngestFile(mode, fs[i]))]
  {
    var n := fs[i].name;
    BatchTraceCons(mode, fs, n);
    if i == 0 {
      forall j | 0 <= j < |fs| - 1 ensures fs[1..][j].name != n {
        assert fs[1..][j] == fs[j + 1];
      }
      BatchTraceOutside(mode, fs[1..], n);
    } else {
      assert fs[0].name != n;
      DistinctTail(fs);
      assert fs[1..][i - 1] == fs[i];
      BatchTraceAt(mode, fs[1..], i - 1);
    }
  }

  /** The statuses a batch assigns to `n`: those of its first file, then
      those of the rest. */
  lemma BatchTraceCons(mode: Mode, fs: seq<FileInput>, n: string)
    requires |fs| > 0
    ensures Trace(BatchEffects(mode, fs), n)
            == (if n == fs[0].name then [Uploading, Terminal(IngestFile(mode, fs[0]))] else [])
               + Trace(BatchEffects(mode, fs[1..]), n)
  {
    TraceAppend(FileEffects(mode, fs[0]), BatchEffects(mode, fs[1..]), n);
    FileEffectsSpec(mode, fs[0]);
  }

  lemma {:induction false} OfflineTrace(fs: seq<FileInput>, n: string)
    ensures var es := seq(|fs|, i requires 0 <= i < |fs| => SetStatus(fs[i].name, Error));
            && (forall x :: x in Trace(es, n) ==> x == Error)
            && ((exists i :: 0 <= i < |fs| && fs[i].name == n) <==> Trace(es, n) != [])
            && Posted(es) == []
  {
    var es := seq(|fs|, i requires 0 <= i < |fs| => SetStatus(fs[i].name, Error));
    if |fs| > 0 {
      OfflineTrace(fs[1..], n);
      var es' := seq(|fs| - 1, i requires 0 <= i < |fs| - 1 => SetStatus(fs[1..][i].name, Error));
      assert es[1..] == es';
      assert Trace(es, n) == (if fs[0].name == n then [Error] else []) + Trace(es', n);
      assert Posted(es) == Posted(es');
      if exists i :: 0 <= i < |fs| - 1 && fs[1..][i].name == n {
        var i :| 0 <= i < |fs| - 1 && fs[1..][i].name == n;
        assert fs[i + 1].name == n;
      }
      if exists i :: 0 <= i < |fs| && fs[i].name == n {
        var i :| 0 <= i < |fs| && fs[i].name == n;
        if i > 0 { assert fs[1..][i - 1].name == n; }
      }
    }
  }

  // ---------------------------------------------------------------------
  // The whole handler

  /** Whatever the outcomes: the list grows by one entry per selected file,
      named in selection order after the existing entries; existing
      entries keep their names, and those whose name is not selected keep
      their status; the transcript only grows; input and flag are kept. */
  lemma UploadShape(s: Session, mode: Mode, online: bool, fs: seq<FileInput>)
    ensures var t := HandleFileUpload(s, mode, online, Some(fs));
            && |t.files| == |s.files| + |fs|
            && (forall k :: 0 <= k < |s.files| ==> t.files[k].name == s.files[k].name)
            && (forall i :: 0 <= i < |fs| ==> t.files[|s.files| + i].name == fs[i].name)
            && (forall k :: 0 <= k < |s.files| && (forall i :: 0 <= i < |fs| ==> fs[i].name != s.files[k].name)
                  ==> t.files[k] == s.files[k])
            && |t.messages| >= |s.messages| && t.messages[..|s.messages|] == s.messages
            && t.input == s.input && t.isProcessing == s.isProcessing
  {
    var p := s.(files := AppendPending(s.files, InputNames(fs)));
    var es := UploadEffects(mode, online, fs);
    assert HandleFileUpload(s, mode, online, Some(fs)) == ApplyAll(p, es);
    ApplyAllShape(p, es);
    forall k | 0 <= k < |s.files| && (forall i :: 0 <= i < |fs| ==> fs[i].name != s.files[k].name)
      ensures ApplyAll(p, es).files[k] == s.files[k]
    {
      UnselectedKept(s, mode, online, fs, k);
    }
  }

  /** An existing entry whose name no selected file has is left alone. */
  lemma UnselectedKept(s: Session, mode: Mode, online: bool, fs: seq<FileInput>, k: nat)
    requires k < |s.files|
    requires forall i :: 0 <= i < |fs| ==> fs[i].name != s.files[k].name
    ensures var p := s.(files := AppendPending(s.files, InputNames(fs)));
            var t := ApplyAll(p, UploadEffects(mode, online, fs));
            k < |t.files| && t.files[k] == s.files[k]
  {
    var p := s.(files := AppendPending(s.files, InputNames(fs)));
    var es := UploadEffects(mode, online, fs);
    ApplyAllShape(p, es);
    ApplyAllStatus(p, es, k);
    assert p.files[k] == s.files[k];
    if mode == Live && !online {
      OfflineTrace(fs, s.files[k].name);
      TraceAppend([Post(Say(OfflineMessage))],
        seq(|fs|, i requires 0 <= i < |fs| => SetStatus(fs[i].name, Error)), s.files[k].name);
    } else {
      BatchTraceOutside(mode, fs, s.files[k].name);
    }
  }

  /** A name that no selected file has is never assigned by the loop,
      whether or not the selected names are distinct. */
  lemma {:induction false} BatchTraceOutside(mode: Mode, fs: seq<FileInput>, n: string)
    requires forall i :: 0 <= i < |fs| ==> fs[i].name != n
    ensures Trace(BatchEffects(mode, fs), n) == []
  {
    if |fs| > 0 {
      TraceAppend(FileEffects(mode, fs[0]), BatchEffects(mode, fs[1..]), n);
      FileEffectsSpec(mode, fs[0]);
      assert forall i :: 0 <= i < |fs| - 1 ==> fs[1..][i].name != n by {
        forall i | 0 <= i < |fs| - 1 ensures fs[1..][i].name != n { assert fs[1..][i] == fs[i + 1]; }
      }
      BatchTraceOutside(mode, fs[1..], n);
    }
  }

  /** The handler unfolded: the updates applied to the list with the
      pending entries appended. */
  lemma UnfoldUpload(s: Session, mode: Mode, online: bool, fs: seq<FileInput>)
    ensures HandleFileUpload(s, mode, online, Some(fs))
         == ApplyAll(s.(files := AppendPending(s.files, InputNames(fs))), UploadEffects(mode, online, fs))
  {
  }

  /** The offline branch as a list of updates: the warning, then `error`
      for each selected name. */
  lemma OfflineEffects(fs: seq<FileInput>)
    ensures Posted(UploadEffects(Live, false, fs)) == [Say(OfflineMessage)]
    ensures forall n, x :: x in Trace(UploadEffects(Live, false, fs), n) ==> x == Error
    ensures forall n :: n in InputNames(fs) ==> Trace(UploadEffects(Live, false, fs), n) != []
  {
    var rest := seq(|fs|, i requires 0 <= i < |fs| => SetStatus(fs[i].name, Error));
    var es := UploadEffects(Live, false, fs);
    assert es == [Post(Say(OfflineMessage))] + rest;
    PostedAppend([Post(Say(OfflineMessage))], rest);
    OfflineTrace(fs, "");
    forall n ensures Trace(es, n) == Trace(rest, n) {
      TraceAppend([Post(Say(OfflineMessage))], rest, n);
    }
    forall n, x | x in Trace(es, n) ensures x == Error {
      OfflineTrace(fs, n);
    }
    forall n | n in InputNames(fs) ensures Trace(es, n) != [] {
      OfflineTrace(fs, n);
      var i :| 0 <= i < |fs| && InputNames(fs)[i] == n;
    }
  }

  /** Live mode, backend unreachable: exactly the warning is posted, every
      entry bearing a selected name ends in `error` (earlier entries with
      such a name too), and no file is ever set to anything but `error`. */
  lemma OfflineBatch(s: Session, fs: seq<FileInput>)
    ensures var t := HandleFileUpload(s, Live, false, Some(fs));
            && |t.files| == |s.files| + |fs|
            && t.messages == s.messages + [Say(OfflineMessage)]
            && (forall k :: 0 <= k < |t.files| && t.files[k].name in InputNames(fs) ==> t.files[k].status == Error)
            && (forall k :: |s.files| <= k < |t.files| ==> t.files[k].status == Error)
    ensures forall n, x :: x in Trace(UploadEffects(Live, false, fs), n) ==> x == Error
  {
    var p := s.(files := AppendPending(s.files, InputNames(fs)));
    var es := UploadEffects(Live, false, fs);
    UnfoldUpload(s, Live, false, fs);
    var t := ApplyAll(p, es);
    ApplyAllShape(p, es);
    OfflineEffects(fs);
    forall k | 0 <= k < |t.files| && t.files[k].name in InputNames(fs)
      ensures t.files[k].status == Error
    {
      ApplyAllStatus(p, es, k);
      var tr := Trace(es, p.files[k].name);
      assert tr[|tr| - 1] in tr;
    }
    forall k | |s.files| <= k < |t.files| ensures t.files[k].status == Error {
      assert t.files[k].name == InputNames(fs)[k - |s.files|];
    }
  }

  /** Live mode, backend reachable: every selected file posts exactly one
      message, in selection order; the messages are the files' outcome
      messages. */
  lemma LiveBatchMessages(s: Session, fs: seq<FileInput>)
    ensures var t := HandleFileUpload(s, Live, true, Some(fs));
            && t.messages == s.messages + BatchMessages(Live, fs)
            && |t.messages| == |s.messages| + |fs|
  {
    var p := s.(files := AppendPending(s.files, InputNames(fs)));
    UnfoldUpload(s, Live, true, fs);
    ApplyAllShape(p, UploadEffects(Live, true, fs));
    BatchPosted(Live, fs);
    LiveBatchMessageCount(fs);
  }

  /** Simulation mode: the probe plays no part, and only failures post
      messages. */
  lemma SimulationBatch(s: Session, fs: seq<FileInput>)
    ensures HandleFileUpload(s, Simulation, true, Some(fs)) == HandleFileUpload(s, Simulation, false, Some(fs))
    ensures HandleFileUpload(s, Simulation, true, Some(fs)).messages
              == s.messages + BatchMessages(Simulation, fs)
    ensures forall i :: 0 <= i < |fs| && !IngestFile(Simulation, fs[i]).Rejected? ==>
              OutcomeMessages(Simulation, fs[i]) == []
  {
    var p := s.(files := AppendPending(s.files, InputNames(fs)));
    UnfoldUpload(s, Simulation, true, fs);
    UnfoldUpload(s, Simulation, false, fs);
    assert UploadEffects(Simulation, true, fs) == UploadEffects(Simulation, false, fs);
    ApplyAllShape(p, UploadEffects(Simulation, true, fs));
    BatchPosted(Simulation, fs);
  }

  /** When the probe succeeds (or is skipped) and the selected names are
      distinct, each new entry ends in its own file's terminal status after
      passing through `uploading`; an earlier entry sharing a selected
      file's name ends in that same status. */
  lemma FinalStatuses(s: Session, mode: Mode, online: bool, fs: seq<FileInput>)
    requires mode == Simulation || online
    requires DistinctNames(fs)
    ensures var t := HandleFileUpload(s, mode, online, Some(fs));
            && |t.files| == |s.files| + |fs|
            && (forall i :: 0 <= i < |fs| ==>
                  t.files[|s.files| + i].status == Terminal(IngestFile(mode, fs[i])))
            && (forall k, i :: 0 <= k < |s.files| && 0 <= i < |fs| && s.files[k].name == fs[i].name ==>
                  t.files[k].status == Terminal(IngestFile(mode, fs[i])))
    ensures forall i :: 0 <= i < |fs| ==>
              Trace(UploadEffects(mode, online, fs), fs[i].name)
                == [Uploading, Terminal(IngestFile(mode, fs[i]))]
  {
    var p := s.(files := AppendPending(s.files, InputNames(fs)));
    var es := UploadEffects(mode, online, fs);
    assert es == BatchEffects(mode, fs);
    ApplyAllShape(p, es);
    forall i | 0 <= i < |fs|
      ensures Trace(es, fs[i].name) == [Uploading, Terminal(IngestFile(mode, fs[i]))]
    {
      BatchTrace(mode, fs, fs[i].name);
    }
    forall i | 0 <= i < |fs|
      ensures ApplyAll(p, es).files[|s.files| + i].status == Terminal(IngestFile(mode, fs[i]))
    {
      ApplyAllStatus(p, es, |s.files| + i);
    }
    forall k, i | 0 <= k < |s.files| && 0 <= i < |fs| && s.files[k].name == fs[i].name
      ensures ApplyAll(p, es).files[k].status == Terminal(IngestFile(mode, fs[i]))
    {
      ApplyAllStatus(p, es, k);
    }
  }

  /** A selection event without a file list changes nothing. */
  lemma NoSelectionNoChange(s: Session, mode: Mode, online: bool)
    ensures HandleFileUpload(s, mode, online, None) == s
  {
  }

  /** Even an empty selection probes in live mode, so an unreachable
      backend still posts the warning. */
  lemma EmptyOfflineSelectionWarns(s: Session)
    ensures HandleFileUpload(s, Live, false, Some([])).messages == s.messages + [Say(OfflineMessage)]
  {
    OfflineBatch(s, []);
  }

  /** A live upload of "notes.txt" holding "hello", answered with status 500
      and body {"error":"disk full"}, ends in `error` with one message that
      carries "disk full". */
  lemma DiskFullExample(s: Session)
    ensures var body := Received("{\"error\":\"disk full\"}",
                                 Parsed(Obj(map["error" := Str("disk full")])));
            var f := FileInput("notes.txt", PdfPages([]), TextLoaded("hello"),
                               Responded(Response(500, "Internal Server Error", body)));
            var t := HandleFileUpload(s, Live, true, Some([f]));
            && |t.files| == |s.files| + 1
            && t.files[|s.files|].status == Error
            && |t.messages| == |s.messages| + 1
            && Contains(t.messages[|s.messages|].content, "disk full")
  {
    var body := Received("{\"error\":\"disk full\"}", Parsed(Obj(map["error" := Str("disk full")])));
    var r := Response(500, "Internal Server Error", body);
    var f := FileInput("notes.txt", PdfPages([]), TextLoaded("hello"), Responded(r));
    assert !IsPdfName("notes.txt") by {
      assert AsciiLowerString("notes.txt")[6] == 't';
    }
    assert ExtractFile(f.name, f.pdf, f.text) == Extracted("hello");
    assert !Ok(r);
    assert Prop(body.parsed.value, "error") == Value(Str("disk full"));
    assert UploadErrorText(r) == "disk full";
    assert IngestFile(Live, f) == Rejected("disk full");
    FinalStatuses(s, Live, true, [f]);
    LiveBatchMessages(s, [f]);
    OutcomeMessagesSpec(Live, f);
    assert BatchMessages(Live, [f]) == OutcomeMessages(Live, f);
  }
}

=== FILE: wire.dfy ===
/** What a network call gives back, as abstract outcomes: the body of an
    HTTP message (read as text, then parsed as JSON) and the result of a
    `fetch`. The transport itself is not modelled. */
module Wire {
  import opened JsValues

  /** The outcome of `JSON.parse` / `json.loads` on a body's text. */
  datatype Parse = Parsed(value: JsVal) | NotJson(message: string)

  /** A message body: reading it failed (with the thrown message), or it was
      read as `raw` text, whose JSON parse is `parsed`. */
  datatype Body = Unreadable(message: string) | Received(raw: string, parsed: Parse)

  /** A `fetch` Response: status code, status text and body. */
  datatype Response = Response(status: nat, statusText: string, body: Body)

  /** `res.ok`. */
  predicate Ok(r: Response)
  {
    200 <= r.status <= 299
  }

  /** A `fetch` call either rejects (the request never completed) or
      resolves with a Response, whatever its status. */
  datatype Transport = NetworkFailure(thrown: Thrown) | Responded(response: Response)

  /** The outcome of `await res.json()`: a value, or the message of what it
      threw. */
  datatype JsonRead = Json(value: JsVal) | JsonThrew(message: string)

  function ReadJson(b: Body): (r: JsonRead)
    ensures r.Json? <==> b.Received? && b.parsed.Parsed?
    ensures r.Json? ==> r.value == b.parsed.value
  {
    match b
    case Unreadable(m) => JsonThrew(m)
    case Received(_, NotJson(m)) => JsonThrew(m)
    case Received(_, Parsed(v)) => Json(v)
  }
}

=== FILE: wrappers.dfy ===
/** Optional values, used where the source has an optional field or a
    value that may be absent. */
module Wrappers {

  datatype Option<+T> = None | Some(value: T)
}
